=== FILE: README.md ===
# reddit-commenter, modelled in Dafny

`commenter.py` is a small framework for Reddit reply bots. A user registers
handler functions per subreddit with Flask-style decorators (`@bot.comments`,
`@bot.submissions`). Each pass of the bot does four things for every
registration:

- it picks one comment or submission that passes the registration's `only` filter;
- it asks the handler for a reply;
- it fills the reply's `{word}` placeholders from a YAML word bank (`words.yaml`),
  read through a case-insensitive dictionary that ignores one trailing digit
  (`FormatDict`);
- it posts the result.

Rate limits are retried. A ban (HTTP 403) removes the subreddit from every
pool, and every other failure returns a fixed "skipped" sentinel.

This project models that core as pure Dafny functions over immutable data and
proves properties about it.

Modules:

- `Wrappers`: `Option` and `Result`.
- `Builtins`: the Python 2 pieces the code relies on: exceptions, `str.lower`,
  `unicode.split()`, `filter`, and the draws that stand in for `random`.
- `WordBank`: `FormatDict.__getitem__` and `traverse_dict`.
- `Template`: `re.findall(r"{(\w+)}", msg)` and `str.format(**choices)` for
  plain `{word}` fields.
- `Permute`: `_permute_message`, and the normalisation `_wrapped` applies to a
  handler's return value.
- `Registry`: the two reply pools, registration (append and shuffle) and
  `_remove_subreddit`.
- `Dispatch`: `_make_comment` and its retry loop.
- `Repliers`: `min_length`, `contains`, and `_reply_to_comments` /
  `_reply_to_submissions`.
- `Examples`: worked examples from the bundled sample bot
  (`examples/aggravator/bot.py`).

How the outside world appears in the model:

- **Randomness.** `random.choice` is a list of draws: the i-th choice takes
  index `draws[i]` modulo the list length. A missing draw reads as 0.
  `random.shuffle` is Python 2.7's Fisher-Yates pass over such draws.
- **Posting.** PRAW's posting call is a sequence of outcomes:
  `Posted`, `RateLimited(t)`, `ApiError`, `HttpError(status)` or `OtherError`.
  Each attempt consumes the next outcome.
- **Listings.** A listing is a sequence of `Content` values. For submissions,
  fetching is a function from the listing name to such a sequence.
- **Sleeps.** A rate-limit sleep is recorded in the result (`sleeps`), not
  performed.

Behaviour of the code worth knowing:

- `FormatDict` strips exactly one trailing digit (`noun12` is looked up as
  `noun1`), not all trailing digits.
- A placeholder whose category is absent raises `TypeError` (`random.choice(None)`).
  An empty category raises `IndexError`. For templates made only of plain `{word}`
  fields, `KeyError` is raised only when the whole selection mapping is falsy.
  A template with any other field (`{noun!r}`, `{a-b}`) can raise `KeyError`
  for that field from `str.format` even when the selections are truthy.
- Exceptions from a handler or from templating escape `_reply_to_*`. Nothing is
  posted in that case; the bot does not swallow them.
- A message without placeholders is independent of the word bank only when
  there is no `key` and the subreddit name is non-empty. The lookup of
  `words[subreddit]` happens before the placeholder scan, so `traverse_dict`
  can still fail.
- The sentinels are the code's exact strings, e.g.
  `**[SKIPPED DUE TO BAN: REMOVED SUBREDDIT]**`. A non-403 HTTP error has its
  own sentinel.
- `_reply_to_comments` ignores the registration's listing name.

## Model

| member | source | states |
|---|---|---|
| Builtins.Lower | commenter.py:218 | `str.lower` keeps the length, turns each upper-case ASCII letter into its lower-case letter (code point + 32) and changes nothing else |
| Builtins.Split | commenter.py:204 | every word of `unicode.split()` is non-empty, and its characters are characters of the input that Python 2.7 does not count as whitespace (ASCII TAB to CR, FS to US and SPACE, NEL, NO-BREAK SPACE, and the Unicode spaces and line/paragraph separators) |
| Builtins.SplitJoin | commenter.py:204 | splitting a single-space join of whitespace-free words gives those words back |
| Builtins.SplitLayout | commenter.py:204 | splitting text made of whitespace-free words, with any run of Python 2.7 `unicode` whitespace between them (at least one character) and before or after them, gives exactly those words back |
| Builtins.Keep | commenter.py:167 | `filter(pred, items)` holds exactly the items satisfying `pred` and is no longer than the input |
| Builtins.KeepAppend | commenter.py:167 | filtering a concatenation filters each part and keeps their order |
| Builtins.KeepIdentity | commenter.py:134 | filtering returns the list unchanged if and only if every element passes |
| Builtins.KeepIdempotent | commenter.py:134 | filtering twice with the same predicate is filtering once |
| WordBank.NormalKey | commenter.py:216-218 | the normalised key drops at most one character and holds no upper-case letter |
| WordBank.Lookup | commenter.py:215-221 | the lookup fails with `IndexError` exactly for the empty key; every other key gives an entry or `None` |
| WordBank.LookupFindsLowerCaseKey | commenter.py:218 | a found entry is stored under a key without upper-case letters, so entries with upper-case keys are unreachable |
| WordBank.LookupDigitSuffix | commenter.py:216-218 | `base + digit` resolves to the entry for lower-cased `base`, or `None` |
| WordBank.LookupIgnoresOneDigit | commenter.py:216-218 | `noun1` and `noun` name the same entry |
| WordBank.LookupCaseInsensitive | commenter.py:218 | looking up a lower-cased key gives the same result as the original key |
| WordBank.Traverse | commenter.py:223-225 | an empty start raises `IndexError`; a missing start raises `TypeError`; a start naming a nested table gives that table's lookup of `key`; a start naming a word list raises `TypeError`; success happens only through a nested table |
| Template.FieldLen | commenter.py:153 | a non-zero field length spans `{`, a `\w+` name and `}` |
| Template.FindAll | commenter.py:153 | every name the placeholder scan returns is a `\w+` word |
| Template.FieldLenOfField | commenter.py:153 | a `{name}` field at the start of the text is found whole, whatever follows it |
| Template.FindAllLeadingField | commenter.py:153 | the scan reports a leading `{name}` field and continues right after its `}` |
| Template.FindAllSkipsText | commenter.py:153 | text without `{` (a lone `}` included) adds no names and does not disturb the scan of what follows |
| Template.FindAllEmpty | commenter.py:153 | the scan finds nothing exactly when no position of the text starts a `{name}` field |
| Template.Parse | commenter.py:158 | a successful parse is well formed and writes back to exactly the input; any other brace use is outside the model |
| Template.ParseFindsAll | commenter.py:153-158 | the fields `str.format` substitutes are exactly the names the scan found, in order |
| Template.ParseUnparse | commenter.py:158 | parsing a written-out well-formed template gives the template back |
| Template.Render | commenter.py:158 | formatting succeeds exactly when every field name has a choice and none is all digits |
| Template.RenderAppend | commenter.py:158 | formatting is piecewise, so every occurrence of a name gets the same word |
| Template.RenderField | commenter.py:158 | one field renders as its chosen word |
| Template.FieldsAppend | commenter.py:153 | the fields of a concatenation are the fields of each part, in order |
| Template.FormatNeverMissesAName | commenter.py:157-158 | when every scanned name has a choice, formatting fails exactly when some name is all digits, and then with `IndexError`, never with `KeyError` |
| Permute.Pick | commenter.py:157 | `random.choice(selections[name])` succeeds exactly when the name's list is non-empty, and returns the listed word the draw selects |
| Permute.Choose | commenter.py:157 | the choices succeed exactly when every placeholder's list is non-empty, cover exactly the scanned names, and map each to one of its candidates |
| Permute.Fill | commenter.py:152-158 | a message without placeholders is untouched; placeholders with falsy selections raise `KeyError(subreddit)` |
| Permute.FillSucceeds | commenter.py:152-158 | a plain `{word}` template with placeholders and truthy selections is filled exactly when every placeholder name resolves to a non-empty word list and none is all digits |
| Permute.FillSubstitutes | commenter.py:152-158 | a successful fill is the parsed template rendered with one candidate word per scanned name |
| Permute.PermuteFills | commenter.py:136-158 | without `key` and `postprocess`, a non-empty message gives exactly the fill of `words[subreddit]`: its text, or its exception |
| Permute.PermuteMessage | commenter.py:136-163 | an empty or missing message gives `None`; the falsy-selections `KeyError`; a placeholder-free message without key is returned as is or post-processed |
| Permute.KeyReadsNestedEntry | commenter.py:147-150 | a non-empty `key` fills the message from the entry it names inside the subreddit's table, as if that entry were the subreddit's own and no key were given |
| Permute.PostProcessAfterFill | commenter.py:160-163 | a callable `postprocess` is applied exactly once, to the filled text; `None` and errors pass through unchanged |
| Permute.NoPlaceholdersIgnoresWords | commenter.py:144-163 | without placeholders and without key, the result does not depend on the word bank or the draws |
| Permute.ChooseDeterministic | commenter.py:157 | with single-word lists the choices do not depend on the draws |
| Permute.PermuteDeterministic | commenter.py:136-163 | with single-word lists the whole reply does not depend on the draws |
| Permute.ChooseFollowsDraw | commenter.py:157 | draws that pick given words produce exactly those words |
| Permute.ChooseExactly | commenter.py:157 | draws that pick the words of a mapping over the scanned names produce exactly that mapping |
| Permute.ChooseReachesEveryCombination | commenter.py:157 | every combination of one candidate per name is produced by some draws, so numbered placeholders draw independently |
| Permute.Bind | commenter.py:75-78 | keyword options succeed exactly when they name only `postprocess` and `key`; positional options succeed exactly when there are at most two; the message is passed through |
| Permute.Normalise | commenter.py:67-74 | a falsy or string handler result becomes the message with no options |
| Permute.Wrapped | commenter.py:65-78 | a falsy or empty reply gives `None`; an unknown keyword raises `TypeError` |
| Permute.KeywordsMatchPositional | commenter.py:75-78 | `(msg, {"postprocess": p, "key": k})` behaves like `(msg, [p, k])` |
| Permute.TextMeansNoOptions | commenter.py:69-71 | a bare string behaves like a pair with no options |
| Registry.Shuffle | commenter.py:82 | `random.shuffle` returns a permutation of the pool |
| Registry.Register | commenter.py:80-82 | the kind's pool grows by exactly the new entry, as a multiset; the other pool is unchanged |
| Registry.Without | commenter.py:134 | one pool keeps exactly the entries of other subreddits |
| Registry.RemoveSubreddit | commenter.py:131-134 | no pool holds the name afterwards, every other entry is kept, and no pool grows |
| Registry.WithoutAppend | commenter.py:134 | removal acts piecewise, so kept entries keep their relative order |
| Registry.WithoutIdentity | commenter.py:134 | a pool is unchanged by removal if and only if no entry carries the name |
| Registry.RemoveAbsent | commenter.py:131-134 | removal changes nothing if and only if no entry carries the name |
| Registry.RemoveIdempotent | commenter.py:131-134 | removing the same subreddit twice equals removing it once |
| Registry.RemoveCommutes | commenter.py:131-134 | removals of two subreddits commute |
| Registry.WithoutCommutes | commenter.py:134 | per-pool removals of two names commute |
| Dispatch.FirstTerminal | commenter.py:107-129 | the index of the first outcome that ends the loop: all earlier outcomes are rate limits |
| Dispatch.Attempt | commenter.py:107-129 | the retry loop sleeps once per leading rate limit; the first other outcome alone decides the returned sentinel and the state change; attempts = rate limits + 1 |
| Dispatch.MakeComment | commenter.py:103-129 | unsuitable input returns the sentinel with no attempt; replied ids only grow, and only by the content's id on a post that returns the comment; the pools change only by a ban's removal; suitable input sleeps once per leading rate limit and then takes its reply, state and attempt count from the first other outcome |
| Dispatch.MakeCommentPosts | commenter.py:103-115 | a suitable reply whose first outcome other than a rate limit is a success returns the comment and records the content's id, with the pools untouched |
| Dispatch.NoDoublePost | commenter.py:104-111 | after a successful post, a second reply to the same content makes no attempt and returns the unsuitable sentinel |
| Dispatch.RateLimitRetries | commenter.py:113-115 | a rate limit retries the same content and comment after one more sleep |
| Dispatch.TwoRateLimitsThenSuccess | commenter.py:107-115 | two rate limits then success: sleeps of the reported lengths, three attempts, comment returned |
| Dispatch.BanPurgesSubreddit | commenter.py:119-124 | a 403 returns the ban sentinel, removes the content's subreddit from both pools and leaves replied ids alone |
| Dispatch.SentinelsDistinct | commenter.py:105-129 | the five sentinels are pairwise different |
| Repliers.MinLengthMonotone | commenter.py:195-199 | a larger minimum passes fewer items; a non-positive one passes all |
| Repliers.Contains | commenter.py:201-205 | `contains(s)` can only hold for a non-empty, whitespace-free, lower-case `s` |
| Repliers.LowerLayout | commenter.py:204 | lower-casing a body lower-cases each of its words and leaves its whitespace alone |
| Repliers.ContainsWholeWord | commenter.py:201-205 | on any body, whatever the case of its ASCII letters and whatever whitespace separates, precedes or follows its words, `contains(s)` holds exactly when `s` is one of its words lower-cased |
| Repliers.NoBreakSpaceSeparates | commenter.py:204-205 | a no-break space separates words: `contains("cats")` accepts `cats` followed by U+00A0 and `rule` |
| Repliers.ContainsRejectsPhrase | commenter.py:192-205 | `contains("some phrase")` rejects every content |
| Repliers.ContainsPhrase | commenter.py:189-193 | the phrase filter the usage comment describes only accepts phrases with at least one word |
| Repliers.ContainsPhraseExtendsContains | commenter.py:201-205 | on a single lower-case word, the phrase filter and `contains` agree |
| Repliers.ContainsPhraseIgnoresCase | commenter.py:189-193 | the phrase filter ignores case in the phrase |
| Repliers.PhraseExample | commenter.py:192-193 | on body `say some phrase`, the phrase filter accepts `some phrase` and `contains` does not |
| Repliers.PickContent | commenter.py:167-168 | the pick is `None` exactly when no item passes the filter; otherwise it is a listed item that passes |
| Repliers.PickReachesEvery | commenter.py:168 | every item that passes the filter is picked by some draw |
| Repliers.ReplyToComments | commenter.py:165-169 | with no passing comment the step returns the unsuitable sentinel unchanged (or the handler's error); a post records a comment from the stream that passed the filter |
| Repliers.ReplyToSubmissions | commenter.py:171-174 | the same over the listing the registration names |
| Repliers.ReplyToCommentsPosts | commenter.py:165-169 | the picked comment goes to the handler, and a suitable reply whose first outcome other than a rate limit is a success is returned and the comment's id recorded |
| Repliers.ReplyToSubmissionsPosts | commenter.py:171-174 | the same for the submission picked from the named listing |
| Repliers.CommentsIgnoreListing | commenter.py:165-167 | the comment path does not depend on the listing name |
| Examples.MusicReplyText | examples/aggravator/bot.py:80-85 | the template `{ugh} this band honestly sucks {animal} {noun}` with key `sucks` and single-word lists becomes `ugh this band honestly sucks cat noise` for any draws |
| Examples.MusicEndToEnd | examples/aggravator/bot.py:75-85 | registered on `music` with listing `new`, that text is posted, returned and recorded after one attempt |
| Examples.IndependentDraws | commenter.py:211-213 | `{noun1}` and `{noun2}` both draw from `noun` and can get different words |
| Examples.ChooseSingletons | commenter.py:157 | when every list has one word, the choices are those words whatever the draws |

## Left out

- Logging in, fetching listings, posting, loading YAML and writing the log file (commenter.py:32-58, 97-101). These are I/O through PRAW, yaml and files; they appear only as parameters or outcome sequences.
- `time.sleep`, `reply_to_all` and the infinite `run` loop (commenter.py:176-187). These are timing and driver code; a rate-limit sleep is recorded, not performed.
- The sequence-key branch of `traverse_dict` (commenter.py:227-228). A truthy non-string key is modelled only as far as `Callable` raising `TypeError`.
- `str.format` beyond plain `{word}` fields: escaped braces, `{0}`, attribute/index fields, conversions and format specs give `UnsupportedFormat` instead of Python's behaviour.
- Unicode: lower-casing and `\w` cover ASCII only, and the ASCII encoding in `_log` is omitted.
- Builtins.Split: the separators are those of Python 2.7's `unicode.split()`, because PRAW returns bodies as `unicode`. A body passed as a byte `str` would split on the six ASCII separators only; the model does not tell the two apart.
- Repliers.ContainsWholeWord: "whatever its case" covers ASCII letters only, because `Builtins.Lower` lower-cases ASCII only. A body with a non-ASCII capital (say `É`) keeps it in the model, while `unicode.lower()` would lower-case it.
- Word-bank values other than nested mappings and lists of strings (numbers, strings, `None` as YAML scalars).
- The distributions of `random.shuffle` and `random.choice`; only which results are reachable is modelled.
- Registry.Register: registration after a ban is modelled as growing the live pool. In the source, `_set_replier` closes over the original list (commenter.py:60, 87-95), while `_remove_subreddit` rebinds the pools to new lists (commenter.py:131-134). A decorator run after a ban therefore appends to, and shuffles, a list that `reply_to_all` never reads again. The model assumes every registration happens before the first ban, as in the sample bot, where all decorators run at import time.
- Registry.Shuffle: proved to be a permutation; the exact order it produces for given draws is not stated.
- Registration keeps the subreddit's display name, not the PRAW `Subreddit` object, and assumes `content.subreddit.display_name` equals the name it was registered under.
- Exceptions from `postprocess` or from a handler's own code are out of scope; the handler is a total function here.
- A run whose outcomes end while the loop is still rate-limited reports `StillRateLimited`; the source would keep retrying.

## Findings

| source | as written | input that shows it | evidently intended | confidence | as-written member | corrected member |
|---|---|---|---|---|---|---|
| commenter.py:189-205 | `contains(s)` tests `s in content.body.lower().split()`; the usage comment passes `contains("some phrase")` | `contains("some phrase")` on a comment whose body is `say some phrase` | accept comments whose lower-cased words contain the phrase's lower-cased words consecutively | medium, not executed | Repliers.ContainsRejectsPhrase | Repliers.ContainsPhrase |

The words `split()` returns never hold whitespace, so a multi-word phrase never
matches any comment. For the same reason, an `s` with an upper-case letter never
matches. `Repliers.ContainsPhrase` is the filter the comment describes. It
agrees with `contains` on every single lower-case word
(`Repliers.ContainsPhraseExtendsContains`), ignores the phrase's case, and
accepts the example (`Repliers.PhraseExample`). It can be passed as a
registration's `only` filter.

=== FILE: builtins.dfy ===
/** The small part of Python 2's runtime the bot relies on: the exceptions it
    can raise, `str.isdigit`, `str.lower`, `unicode.split()` and `filter`.
    Splitting follows `unicode.split()` over its full whitespace set; digits
    and lower-casing cover ASCII only. */
module Builtins {

  /** The exceptions that escape the templating code. `UnsupportedFormat`
      marks a template that uses `str.format` features outside the model
      (escaped braces, attribute or index fields, conversions). */
  datatype PyError =
    | KeyError(key: string)
    | TypeError
    | IndexError
    | UnsupportedFormat

  predicate IsDigit(c: char) {
    '0' <= c <= '9'
  }

  predicate IsUpper(c: char) {
    'A' <= c <= 'Z'
  }

  /** The characters `unicode.split()` treats as separators in Python 2.7
      (comment and submission bodies are `unicode`): the ASCII controls
      TAB to CR and FS to US, SPACE, NEL, NO-BREAK SPACE, and the Unicode
      space and line/paragraph separators. */
  predicate IsSpace(c: char) {
    || c == ' '
    || '\t' <= c <= '\r'
    || '\U{1c}' <= c <= '\U{1f}'
    || c == '\U{85}' || c == '\U{a0}' || c == '\U{1680}' || c == '\U{180e}'
    || '\U{2000}' <= c <= '\U{200a}'
    || c == '\U{2028}' || c == '\U{2029}' || c == '\U{202f}' || c == '\U{205f}' || c == '\U{3000}'
  }

  function LowerChar(c: char): (r: char)
    ensures !IsUpper(r)
    ensures !IsUpper(c) ==> r == c
    ensures IsSpace(r) <==> IsSpace(c)
  {
    if IsUpper(c) then (c as int - 'A' as int + 'a' as int) as char else c
  }

  /** `s.lower()`: every upper-case letter replaced, nothing else touched. */
  function Lower(s: string): (r: string)
    ensures |r| == |s|
    ensures forall i :: 0 <= i < |r| ==> !IsUpper(r[i])
    ensures forall i :: 0 <= i < |s| && !IsUpper(s[i]) ==> r[i] == s[i]
    ensures forall i :: 0 <= i < |s| && IsUpper(s[i]) ==> r[i] as int == s[i] as int + 32
  {
    seq(|s|, i requires 0 <= i < |s| => LowerChar(s[i]))
  }

  lemma LowerIdempotent(s: string)
    ensures Lower(Lower(s)) == Lower(s)
  {
  }

  /** Length of the leading run of non-separator characters. */
  function WordLen(s: string): (n: nat)
    ensures n <= |s|
    ensures forall i :: 0 <= i < n ==> !IsSpace(s[i])
    ensures n < |s| ==> IsSpace(s[n])
  {
    if |s| == 0 || IsSpace(s[0]) then 0 else 1 + WordLen(s[1..])
  }

  /** `s.split()` with no separator: the maximal runs of non-whitespace
      characters, in order; leading, trailing and repeated whitespace
      produce no empty words. */
  function Split(s: string): (r: seq<string>)
    ensures forall w :: w in r ==> |w| > 0
    ensures forall w, c :: w in r && c in w ==> c in s && !IsSpace(c)
    decreases |s|
  {
    if |s| == 0 then []
    else if IsSpace(s[0]) then Split(s[1..])
    else
      var n := WordLen(s);
      assert forall c :: c in s[..n] ==> c in s;
      assert forall c :: c in s[n..] ==> c in s;
      [s[..n]] + Split(s[n..])
  }

  /** A word `str.split()` can return: non-empty and free of whitespace. */
  predicate IsWord(w: string) {
    |w| > 0 && forall i :: 0 <= i < |w| ==> !IsSpace(w[i])
  }

  /** `" ".join(words)`. */
  function Join(words: seq<string>): string {
    if |words| == 0 then ""
    else if |words| == 1 then words[0]
    else words[0] + " " + Join(words[1..])
  }

  lemma {:induction false} WordLenOfWord(w: string, rest: string)
    requires IsWord(w)
    requires |rest| == 0 || IsSpace(rest[0])
    ensures WordLen(w + rest) == |w|
    decreases |w|
  {
    if |w| > 1 {
      assert (w + rest)[1..] == w[1..] + rest;
      WordLenOfWord(w[1..], rest);
    } else {
      assert (w + rest)[1..] == rest;
    }
  }

  /** Splitting undoes joining with single spaces. */
  lemma {:induction false} SplitJoin(words: seq<string>)
    requires forall i :: 0 <= i < |words| ==> IsWord(words[i])
    ensures Split(Join(words)) == words
    decreases |words|
  {
    if |words| == 1 {
      var w := words[0];
      WordLenOfWord(w, "");
      assert w + "" == w;
      assert w[|w|..] == "";
    } else if |words| > 1 {
      var w, rest := words[0], Join(words[1..]);
      var s := w + " " + rest;
      assert s == w + (" " + rest);
      WordLenOfWord(w, " " + rest);
      assert s[..|w|] == w;
      assert s[|w|..] == " " + rest;
      assert s[|w|..][1..] == rest;
      SplitJoin(words[1..]);
    }
  }

  /** Whitespace only (possibly empty). */
  predicate IsBlank(g: string) {
    forall i :: 0 <= i < |g| ==> IsSpace(g[i])
  }

  /** Text laid out from `words` and whitespace `gaps`: `gaps[0]` before the
      first word, `gaps[i]` between word `i - 1` and word `i`, and the last
      gap after the last word. */
  function Layout(words: seq<string>, gaps: seq<string>): string
    requires |gaps| == |words| + 1
    decreases |words|
  {
    if |words| == 0 then gaps[0] else gaps[0] + words[0] + Layout(words[1..], gaps[1..])
  }

  /** `gaps` can surround `words` in a `Layout`: all whitespace, and
      non-empty between two words. Leading and trailing gaps may be empty. */
  predicate Separates(words: seq<string>, gaps: seq<string>) {
    && |gaps| == |words| + 1
    && (forall i :: 0 <= i < |gaps| ==> IsBlank(gaps[i]))
    && (forall i :: 0 < i < |words| ==> |gaps[i]| > 0)
  }

  lemma {:induction false} SplitSkipsBlank(g: string, s: string)
    requires IsBlank(g)
    ensures Split(g + s) == Split(s)
    decreases |g|
  {
    if |g| > 0 {
      assert (g + s)[0] == g[0];
      assert (g + s)[1..] == g[1..] + s;
      SplitSkipsBlank(g[1..], s);
    } else {
      assert g + s == s;
    }
  }

  lemma SplitWord(w: string, rest: string)
    requires IsWord(w)
    requires |rest| == 0 || IsSpace(rest[0])
    ensures Split(w + rest) == [w] + Split(rest)
  {
    WordLenOfWord(w, rest);
    var s := w + rest;
    assert s[..|w|] == w;
    assert s[|w|..] == rest;
  }

  /** `str.split()` recovers the words of any layout, whatever whitespace
      separates, precedes or follows them. */
  lemma {:induction false} SplitLayout(words: seq<string>, gaps: seq<string>)
    requires forall i :: 0 <= i < |words| ==> IsWord(words[i])
    requires Separates(words, gaps)
    ensures Split(Layout(words, gaps)) == words
    decreases |words|
  {
    if |words| == 0 {
      SplitSkipsBlank(gaps[0], "");
      assert gaps[0] + "" == gaps[0];
    } else {
      var rest := Layout(words[1..], gaps[1..]);
      assert Separates(words[1..], gaps[1..]);
      SplitLayout(words[1..], gaps[1..]);
      assert gaps[0] + words[0] + rest == gaps[0] + (words[0] + rest);
      SplitSkipsBlank(gaps[0], words[0] + rest);
      LayoutStart(words[1..], gaps[1..]);
      SplitWord(words[0], rest);
    }
  }

  /** A layout begins with its first gap. */
  lemma LayoutStart(words: seq<string>, gaps: seq<string>)
    requires |gaps| == |words| + 1
    ensures |gaps[0]| <= |Layout(words, gaps)|
    ensures Layout(words, gaps)[..|gaps[0]|] == gaps[0]
  {
  }

  /** The i-th of a run's random draws. The draws are supplied by the
      caller in place of the `random` module; one beyond those supplied
      reads as 0. */
  function Nth(draws: seq<nat>, i: nat): nat {
    if i < |draws| then draws[i] else 0
  }

  /** Python 2's `filter(pred, items)` on a list. */
  function Keep<T(!new)>(items: seq<T>, pred: T -> bool): (r: seq<T>)
    ensures |r| <= |items|
    ensures forall x :: x in r <==> x in items && pred(x)
  {
    if |items| == 0 then []
    else (if pred(items[0]) then [items[0]] else []) + Keep(items[1..], pred)
  }

  lemma {:induction false} KeepAppend<T(!new)>(a: seq<T>, b: seq<T>, pred: T -> bool)
    ensures Keep(a + b, pred) == Keep(a, pred) + Keep(b, pred)
    decreases |a|
  {
    if |a| > 0 {
      assert (a + b)[1..] == a[1..] + b;
      KeepAppend(a[1..], b, pred);
    } else {
      assert a + b == b;
    }
  }

  lemma {:induction false} KeepIdentity<T(!new)>(items: seq<T>, pred: T -> bool)
    ensures Keep(items, pred) == items <==> forall x :: x in items ==> pred(x)
    decreases |items|
  {
    if |items| > 0 {
      KeepIdentity(items[1..], pred);
      if !pred(items[0]) {
        assert |Keep(items, pred)| < |items| by {
          assert |Keep(items[1..], pred)| <= |items[1..]|;
        }
      } else if Keep(items, pred) == items {
        assert Keep(items[1..], pred) == items[1..];
      }
    }
  }

  lemma KeepIdempotent<T(!new)>(items: seq<T>, pred: T -> bool)
    ensures Keep(Keep(items, pred), pred) == Keep(items, pred)
  {
    KeepIdentity(Keep(items, pred), pred);
  }
}

=== FILE: dispatch.dfy ===
/** Posting a reply and reacting to the outcome: `_make_comment`
    (commenter.py:103-129). The remote call is not executed; each attempt's
    outcome is the next element of `outcomes`, and the rate-limit sleep is
    recorded instead of performed. */
module Dispatch {
  import opened Wrappers
  import opened Registry

  /** The fields of a comment or submission the bot reads. */
  datatype Content = Content(id: string, body: string, subreddit: string)

  /** How one call to `_add_comment` ends. */
  datatype PostOutcome =
    | Posted
    | RateLimited(sleepTime: nat)
    | ApiError
    | HttpError(status: int)
    | OtherError

  /** The mutable state `_make_comment` touches: the pools and the ids
      already replied to. */
  datatype Bot<R> = Bot(registry: Registry<R>, replied: set<string>)

  const Unsuitable := "**[SKIPPED DUE TO UNSUITABLE CONTENT SELECTION]**"
  const ApiSkip := "**[SKIPPED DUE TO API ERROR]**"
  const BanSkip := "**[SKIPPED DUE TO BAN: REMOVED SUBREDDIT]**"
  const HttpSkip := "**[SKIPPED DUE TO UNKNOWN HTTP ERROR]**"
  const ExceptionSkip := "**[SKIPPED DUE TO UNKNOWN EXCEPTION]**"

  /** HTTP status that means the account is banned from the subreddit. */
  const Forbidden := 403

  /** What `_make_comment` returns, or `StillRateLimited` when the supplied
      outcomes end while the loop is still retrying. */
  datatype Reply = Returned(text: string) | StillRateLimited

  datatype Dispatched<R> = Dispatched(reply: Reply, bot: Bot<R>, sleeps: seq<nat>, attempts: nat)

  /** The guard on line 104: no content, content already replied to, or an
      empty comment. */
  predicate Unsuited<R>(bot: Bot<R>, content: Option<Content>, comment: Option<string>) {
    content.None? || content.value.id in bot.replied || comment.None? || comment.value == ""
  }

  // Reference description of the retry loop: skip the rate-limit outcomes,
  // then let the first other outcome decide.

  /** Index of the first outcome that is not a rate limit, or `|outcomes|`. */
  function FirstTerminal(outcomes: seq<PostOutcome>): (k: nat)
    ensures k <= |outcomes|
    ensures forall i :: 0 <= i < k ==> outcomes[i].RateLimited?
    ensures k < |outcomes| ==> !outcomes[k].RateLimited?
  {
    if |outcomes| == 0 || !outcomes[0].RateLimited? then 0 else 1 + FirstTerminal(outcomes[1..])
  }

  function SleepTimes(outcomes: seq<PostOutcome>): seq<nat>
    requires forall i :: 0 <= i < |outcomes| ==> outcomes[i].RateLimited?
  {
    if |outcomes| == 0 then [] else [outcomes[0].sleepTime] + SleepTimes(outcomes[1..])
  }

  /** The string returned for a final outcome. */
  function Verdict(o: PostOutcome, comment: string): string
    requires !o.RateLimited?
  {
    match o
    case Posted => comment
    case ApiError => ApiSkip
    case HttpError(status) => if status == Forbidden then BanSkip else HttpSkip
    case OtherError => ExceptionSkip
  }

  /** The state after a final outcome: a success records the id, a 403
      removes the subreddit, anything else changes nothing. */
  function Settle<R(!new)>(bot: Bot<R>, c: Content, o: PostOutcome): Bot<R> {
    match o
    case Posted => bot.(replied := bot.replied + {c.id})
    case HttpError(status) =>
      if status == Forbidden then bot.(registry := RemoveSubreddit(bot.registry, c.subreddit)) else bot
    case _ => bot
  }

  /** The `while True` loop: only a rate limit loops, after sleeping for the
      time the service asked for; every other outcome returns. Its result is
      the reference description above. */
  function Attempt<R(!new)>(bot: Bot<R>, c: Content, comment: string, outcomes: seq<PostOutcome>): (r: Dispatched<R>)
    ensures var k := FirstTerminal(outcomes);
      && r.sleeps == SleepTimes(outcomes[..k])
      && (k == |outcomes| ==> r.reply == StillRateLimited && r.attempts == k && r.bot == bot)
      && (k < |outcomes| ==>
            && r.reply == Returned(Verdict(outcomes[k], comment))
            && r.attempts == k + 1
            && r.bot == Settle(bot, c, outcomes[k]))
    decreases |outcomes|
  {
    if |outcomes| == 0 then Dispatched(StillRateLimited, bot, [], 0)
    else
      match outcomes[0]
      case Posted => Dispatched(Returned(comment), bot.(replied := bot.replied + {c.id}), [], 1)
      case RateLimited(t) =>
        var r := Attempt(bot, c, comment, outcomes[1..]);
        assert outcomes[1..][..FirstTerminal(outcomes[1..])] == outcomes[1..FirstTerminal(outcomes)];
        Dispatched(r.reply, r.bot, [t] + r.sleeps, r.attempts + 1)
      case ApiError => Dispatched(Returned(ApiSkip), bot, [], 1)
      case HttpError(status) =>
        if status == Forbidden then
          Dispatched(Returned(BanSkip), bot.(registry := RemoveSubreddit(bot.registry, c.subreddit)), [], 1)
        else Dispatched(Returned(HttpSkip), bot, [], 1)
      case OtherError => Dispatched(Returned(ExceptionSkip), bot, [], 1)
  }

  /** `_make_comment(content, comment)`. Unsuitable input returns the
      sentinel without an attempt and without any change. Otherwise the set
      of replied ids only grows, and only on a successful post, which
      returns the comment itself; the pools change only on a ban, which
      removes exactly the content's subreddit. */
  function MakeComment<R(!new)>(bot: Bot<R>, content: Option<Content>, comment: Option<string>,
                               outcomes: seq<PostOutcome>): (r: Dispatched<R>)
    ensures Unsuited(bot, content, comment) ==> r == Dispatched(Returned(Unsuitable), bot, [], 0)
    ensures r.attempts <= |outcomes|
    ensures bot.replied <= r.bot.replied
    ensures r.bot.replied != bot.replied ==>
      && content.Some? && comment.Some?
      && r.bot.replied == bot.replied + {content.value.id}
      && r.reply == Returned(comment.value)
      && r.bot.registry == bot.registry
    ensures r.bot.registry != bot.registry ==>
      && content.Some?
      && r.bot.registry == RemoveSubreddit(bot.registry, content.value.subreddit)
      && r.reply == Returned(BanSkip)
      && r.bot.replied == bot.replied
    ensures !Unsuited(bot, content, comment) ==>
      var k := FirstTerminal(outcomes);
      && r.sleeps == SleepTimes(outcomes[..k])
      && (k == |outcomes| ==> r.reply == StillRateLimited && r.bot == bot)
      && (k < |outcomes| ==>
            && r.reply == Returned(Verdict(outcomes[k], comment.value))
            && r.attempts == k + 1
            && r.bot == Settle(bot, content.value, outcomes[k]))
  {
    if Unsuited(bot, content, comment) then Dispatched(Returned(Unsuitable), bot, [], 0)
    else Attempt(bot, content.value, comment.value, outcomes)
  }

  /** A suitable reply whose first outcome other than a rate limit is a
      success is posted: the comment comes back and the content's id is
      recorded, after one sleep per rate limit. */
  lemma MakeCommentPosts<R(!new)>(bot: Bot<R>, c: Content, comment: string, outcomes: seq<PostOutcome>)
    requires !Unsuited(bot, Some(c), Some(comment))
    requires FirstTerminal(outcomes) < |outcomes| && outcomes[FirstTerminal(outcomes)] == Posted
    ensures var r := MakeComment(bot, Some(c), Some(comment), outcomes);
      && r.reply == Returned(comment)
      && r.bot == bot.(replied := bot.replied + {c.id})
  {
    assert MakeComment(bot, Some(c), Some(comment), outcomes) == Attempt(bot, c, comment, outcomes);
    PostSettles(bot, c, comment);
  }

  lemma PostSettles<R(!new)>(bot: Bot<R>, c: Content, comment: string)
    ensures Verdict(Posted, comment) == comment
    ensures Settle(bot, c, Posted) == bot.(replied := bot.replied + {c.id})
  {
  }

  /** Replying twice to the same content never posts twice: once a post
      succeeded, the next attempt is refused before calling the service. */
  lemma NoDoublePost<R(!new)>(bot: Bot<R>, c: Content, m1: Option<string>, m2: Option<string>,
                              o1: seq<PostOutcome>, o2: seq<PostOutcome>)
    requires MakeComment(bot, Some(c), m1, o1).bot.replied != bot.replied
    ensures var again := MakeComment(MakeComment(bot, Some(c), m1, o1).bot, Some(c), m2, o2);
      again.reply == Returned(Unsuitable) && again.attempts == 0
  {
  }

  /** A rate limit retries the same content and comment: the dispatch is the
      one on the remaining outcomes, after one more sleep. */
  lemma {:induction false} RateLimitRetries<R(!new)>(bot: Bot<R>, c: Content, comment: string, t: nat, rest: seq<PostOutcome>)
    ensures var r := Attempt(bot, c, comment, [RateLimited(t)] + rest);
      var r' := Attempt(bot, c, comment, rest);
      r.reply == r'.reply && r.bot == r'.bot && r.sleeps == [t] + r'.sleeps && r.attempts == r'.attempts + 1
  {
    assert ([RateLimited(t)] + rest)[1..] == rest;
  }

  /** Two rate limits then success: two sleeps of the reported lengths, a
      third attempt that posts, and the comment returned. */
  lemma TwoRateLimitsThenSuccess<R(!new)>(bot: Bot<R>, c: Content, comment: string, a: nat, b: nat)
    requires comment != "" && c.id !in bot.replied
    ensures var r := MakeComment(bot, Some(c), Some(comment), [RateLimited(a), RateLimited(b), Posted]);
      && r.reply == Returned(comment)
      && r.sleeps == [a, b]
      && r.attempts == 3
      && r.bot.replied == bot.replied + {c.id}
  {
    var o := [RateLimited(a), RateLimited(b), Posted];
    assert FirstTerminal(o[2..]) == 0;
    assert FirstTerminal(o[1..]) == 1 by { assert o[1..][1..] == o[2..]; }
    assert FirstTerminal(o) == 2 by { assert o[1..] == [RateLimited(b), Posted]; }
    assert o[..2] == [RateLimited(a), RateLimited(b)];
    assert SleepTimes([RateLimited(b)]) == [b] by {
      assert [RateLimited(b)][1..] == [];
    }
    assert SleepTimes(o[..2]) == [a, b] by {
      assert o[..2][1..] == [RateLimited(b)];
    }
  }

  /** A ban returns the ban sentinel and removes the content's subreddit
      from both pools, and nothing else: no registration for it is left and
      every other registration is kept (the contract of `RemoveSubreddit`). */
  lemma BanPurgesSubreddit<R(!new)>(bot: Bot<R>, c: Content, comment: string, outcomes: seq<PostOutcome>)
    requires !Unsuited(bot, Some(c), Some(comment))
    requires FirstTerminal(outcomes) < |outcomes| && outcomes[FirstTerminal(outcomes)] == HttpError(Forbidden)
    ensures var r := MakeComment(bot, Some(c), Some(comment), outcomes);
      && r.reply == Returned(BanSkip)
      && r.bot == Bot(RemoveSubreddit(bot.registry, c.subreddit), bot.replied)
  {
    var k := FirstTerminal(outcomes);
    assert MakeComment(bot, Some(c), Some(comment), outcomes) == Attempt(bot, c, comment, outcomes);
    BanSettles(bot, c, comment);
  }

  lemma BanSettles<R(!new)>(bot: Bot<R>, c: Content, comment: string)
    ensures Verdict(HttpError(Forbidden), comment) == BanSkip
    ensures Settle(bot, c, HttpError(Forbidden)) == Bot(RemoveSubreddit(bot.registry, c.subreddit), bot.replied)
  {
  }

  /** The five sentinels are distinct, so a caller can tell the outcomes
      apart. */
  lemma SentinelsDistinct()
    ensures |{Unsuitable, ApiSkip, BanSkip, HttpSkip, ExceptionSkip}| == 5
  {
  }
}

=== FILE: examples.dfy ===
/** Worked examples taken from the bundled sample bot
    (examples/aggravator/bot.py:80-85): the "music" handler, whose word
    bank lists a single word per placeholder, so its reply does not depend
    on the random draws. */
module Examples {
  import opened Wrappers
  import opened Builtins
  import opened WordBank
  import opened Template
  import opened Permute
  import opened Dispatch
  import opened Repliers

  const Middle := " this band honestly sucks "

  /** `{ugh} this band honestly sucks {animal} {noun}` */
  const MusicTemplate := "{ugh}" + Middle + "{animal} {noun}"

  /** `ugh this band honestly sucks cat noise` */
  const MusicReply := "ugh" + Middle + "cat noise"

  const Sucks := map["ugh" := Choices(["ugh"]), "animal" := Choices(["cat"]), "noun" := Choices(["noise"])]

  const MusicWords := map["music" := Table(map["sucks" := Table(Sucks)])]

  /** The handler's result: the template and the option `{"key": "sucks"}`. */
  const MusicSpec := WithArgs(Some(MusicTemplate), Keywords(map["key" := Str("sucks")]))

  /** A run of literal characters. */
  function Lits(s: string): (t: seq<Piece>)
    ensures |t| == |s|
    ensures forall i :: 0 <= i < |t| ==> t[i] == Lit(s[i])
  {
    seq(|s|, i requires 0 <= i < |s| => Lit(s[i]))
  }

  lemma {:induction false} UnparseAppend(a: seq<Piece>, b: seq<Piece>)
    ensures Unparse(a + b) == Unparse(a) + Unparse(b)
    decreases |a|
  {
    if |a| == 0 {
      assert a + b == b;
    } else {
      assert (a + b)[1..] == a[1..] + b;
      assert (a + b)[0] == a[0];
      UnparseAppend(a[1..], b);
    }
  }

  lemma {:induction false} LitsFacts(s: string, choices: map<string, string>)
    ensures Unparse(Lits(s)) == s
    ensures Fields(Lits(s)) == []
    ensures Render(Lits(s), choices) == Success(s)
    decreases |s|
  {
    if |s| > 0 {
      assert Lits(s)[1..] == Lits(s[1..]);
      LitsFacts(s[1..], choices);
      assert s == [s[0]] + s[1..];
    }
  }

  /** The music template, parsed. */
  function MusicPieces(): (t: seq<Piece>)
    ensures WellFormed(t)
  {
    var t := Head + Lits(Middle) + Tail;
    assert forall i :: 0 <= i < |Middle| ==> Middle[i] != '{' && Middle[i] != '}';
    t
  }

  const Head: seq<Piece> := [Field("ugh")]
  const Tail: seq<Piece> := [Field("animal"), Lit(' '), Field("noun")]

  lemma MusicUnparse()
    ensures Unparse(MusicPieces()) == MusicTemplate
  {
    UnparseAppend(Head + Lits(Middle), Tail);
    UnparseHead();
    UnparseTail();
  }

  lemma UnparseHead()
    ensures Unparse(Head + Lits(Middle)) == "{ugh}" + Middle
  {
    UnparseAppend(Head, Lits(Middle));
    LitsFacts(Middle, map[]);
    assert Unparse(Head) == "{ugh}" by {
      assert Head[1..] == [];
    }
  }

  lemma UnparseTail()
    ensures Unparse(Tail) == "{animal} {noun}"
  {
    assert Tail[1..] == [Lit(' '), Field("noun")];
    assert Tail[1..][1..] == [Field("noun")];
    assert Tail[1..][1..][1..] == [];
  }

  lemma MusicParse()
    ensures Parse(MusicTemplate) == Success(MusicPieces())
    ensures FindAll(MusicTemplate) == ["ugh", "animal", "noun"]
  {
    MusicUnparse();
    ParseUnparse(MusicPieces());
    ParseFindsAll(MusicTemplate);
    MusicFields();
  }

  lemma MusicFields()
    ensures Fields(MusicPieces()) == ["ugh", "animal", "noun"]
  {
    FieldsHead();
    FieldsTail();
    FieldsAppend(Head + Lits(Middle), Tail);
  }

  lemma FieldsHead()
    ensures Fields(Head + Lits(Middle)) == ["ugh"]
  {
    LitsFacts(Middle, map[]);
    FieldsAppend(Head, Lits(Middle));
    assert Fields(Head) == ["ugh"] by {
      assert Head[1..] == [];
    }
  }

  lemma FieldsTail()
    ensures Fields(Tail) == ["animal", "noun"]
  {
    assert Tail[1..] == [Lit(' '), Field("noun")];
    assert Tail[1..][1..] == [Field("noun")];
    assert Tail[1..][1..][1..] == [];
  }

  const MusicChoices := map["ugh" := "ugh", "animal" := "cat", "noun" := "noise"]

  lemma MusicRender()
    ensures Render(MusicPieces(), MusicChoices) == Success(MusicReply)
  {
    RenderHead();
    RenderTail();
    RenderAppend(Head + Lits(Middle), Tail, MusicChoices);
  }

  lemma NotAllDigits(n: string)
    requires |n| > 0 && !IsDigit(n[0])
    ensures !AllDigits(n)
  {
  }

  lemma RenderHead()
    ensures Render(Head + Lits(Middle), MusicChoices) == Success("ugh" + Middle)
  {
    NotAllDigits("ugh");
    RenderField("ugh", MusicChoices);
    LitsFacts(Middle, MusicChoices);
    RenderAppend(Head, Lits(Middle), MusicChoices);
  }

  lemma RenderTail()
    ensures Render(Tail, MusicChoices) == Success("cat noise")
  {
    var ch := MusicChoices;
    NotAllDigits("animal");
    NotAllDigits("noun");
    RenderField("animal", ch);
    RenderField("noun", ch);
    assert Render([Lit(' ')], ch) == Success(" ") by {
      assert [Lit(' ')][1..] == [];
      assert [' '] + "" == " ";
    }
    RenderAppend([Lit(' ')], [Field("noun")], ch);
    assert [Lit(' ')] + [Field("noun")] == Tail[1..];
    RenderAppend([Field("animal")], Tail[1..], ch);
    assert [Field("animal")] + Tail[1..] == Tail;
    assert "cat" + (" " + "noise") == "cat noise";
  }

  lemma {:induction false} NoUpperLower(s: string)
    requires NoUpper(s)
    ensures Lower(s) == s
  {
  }

  /** Each placeholder of the music template has exactly one candidate. */
  lemma MusicCandidates()
    ensures Candidates(Table(Sucks), "ugh") == ["ugh"]
    ensures Candidates(Table(Sucks), "animal") == ["cat"]
    ensures Candidates(Table(Sucks), "noun") == ["noise"]
  {
    NoUpperLower("ugh");
    NoUpperLower("animal");
    NoUpperLower("noun");
  }

  /** When every placeholder has exactly one candidate, the choice is that
      candidate, whatever the draws. */
  lemma ChooseSingletons(sel: Node, names: seq<string>, ch: map<string, string>, draws: seq<nat>)
    requires forall k :: k in ch <==> k in names
    requires forall i :: 0 <= i < |names| ==> names[i] in ch && Candidates(sel, names[i]) == [ch[names[i]]]
    ensures Choose(sel, names, draws, 0) == Success(ch)
  {
    assert DrawsPick(sel, names, ch, draws, 0) by {
      forall i | 0 <= i < |names|
        ensures names[i] in ch && PicksAt(sel, names[i], ch[names[i]], Nth(draws, 0 + i))
      {
        SingletonPicks(sel, names[i], ch[names[i]], Nth(draws, i));
      }
    }
    ChooseExactly(sel, names, ch, draws);
  }

  lemma SingletonPicks(sel: Node, name: string, w: string, n: nat)
    requires Candidates(sel, name) == [w]
    ensures PicksAt(sel, name, w, n)
  {
    assert n % 1 == 0;
  }

  lemma MusicChoose(draws: seq<nat>)
    ensures Choose(Table(Sucks), ["ugh", "animal", "noun"], draws, 0) == Success(MusicChoices)
  {
    var names := ["ugh", "animal", "noun"];
    MusicCandidates();
    assert forall k :: k in MusicChoices <==> k in names;
    forall i | 0 <= i < |names|
      ensures names[i] in MusicChoices && Candidates(Table(Sucks), names[i]) == [MusicChoices[names[i]]]
    {
      if i == 0 {
        assert names[i] == "ugh";
      } else if i == 1 {
        assert names[i] == "animal";
      } else {
        assert names[i] == "noun";
      }
    }
    ChooseSingletons(Table(Sucks), names, MusicChoices, draws);
  }

  /** `{"key": "sucks"}` selects the nested table. */
  lemma MusicSelections()
    ensures Selections(MusicWords, "music", Str("sucks")) == Success(Some(Table(Sucks)))
  {
    NoUpperLower("music");
    NoUpperLower("sucks");
  }

  /** The handler result renders to the reply the sample bot documents,
      whatever the draws. */
  lemma MusicReplyText(draws: seq<nat>)
    ensures Wrapped(MusicWords, "music", MusicSpec, draws) == Success(Some(MusicReply))
  {
    MusicNormalise();
    MusicPermute(draws);
  }

  lemma MusicNormalise()
    ensures Normalise(MusicSpec) == Success(Call(Some(MusicTemplate), NoArg, Str("sucks")))
  {
    var kw := map["key" := Str("sucks")];
    assert kw.Keys <= {"postprocess", "key"};
    assert "postprocess" !in kw;
  }

  lemma MusicPermute(draws: seq<nat>)
    ensures PermuteMessage(MusicWords, Some(MusicTemplate), "music", NoArg, Str("sucks"), draws) == Success(Some(MusicReply))
  {
    MusicSelections();
    MusicFill(draws);
  }

  lemma MusicFill(draws: seq<nat>)
    ensures Fill(MusicTemplate, "music", Some(Table(Sucks)), draws) == Success(MusicReply)
  {
    MusicParse();
    MusicChoose(draws);
    MusicRender();
    assert Truthy(Some(Table(Sucks))) by {
      assert "ugh" in Sucks;
    }
  }

  /** End to end, as the sample bot registers it (`music`, listing
      `new`): one listed submission passes the filter, the post succeeds,
      and the documented text is what gets posted and returned. */
  lemma MusicEndToEnd(bot: Bot<Route>, c: Content, only: Content -> bool, listed: string -> seq<Content>,
                      pick: nat, draws: seq<nat>)
    requires listed("new") == [c] && only(c) && c.id !in bot.replied
    ensures var route := Route((_: Option<Content>) => MusicSpec, "new", only);
      var r := ReplyToSubmissions(bot, MusicWords, "music", route, listed, pick, draws, [Posted]);
      && r.Success?
      && r.value.reply == Returned(MusicReply)
      && r.value.bot.replied == bot.replied + {c.id}
      && r.value.attempts == 1
  {
    MusicReplyText(draws);
    assert PickContent([c], only, pick) == Some(c);
    assert [Posted][1..] == [];
  }

  /** `{noun1}` and `{noun2}` both read the `noun` list and draw from it
      independently: different draws give different words. */
  lemma IndependentDraws()
    ensures var sel := Table(map["noun" := Choices(["cat", "dog"])]);
      Choose(sel, ["noun1", "noun2"], [0, 1], 0) == Success(map["noun1" := "cat", "noun2" := "dog"])
  {
    var sel := Table(map["noun" := Choices(["cat", "dog"])]);
    var names := ["noun1", "noun2"];
    var ch := map["noun1" := "cat", "noun2" := "dog"];
    NumberedNouns();
    forall i | 0 <= i < |names|
      ensures names[i] in ch && PicksAt(sel, names[i], ch[names[i]], Nth([0, 1], 0 + i))
    {
      if i == 0 {
        assert names[i] == "noun1" && Nth([0, 1], 0) == 0;
      } else {
        assert names[i] == "noun2" && Nth([0, 1], 1) == 1;
      }
    }
    assert forall k :: k in ch <==> k in names;
    ChooseExactly(sel, names, ch, [0, 1]);
  }

  /** `noun1` and `noun2` both name the `noun` list. */
  lemma NumberedNouns()
    ensures var sel := Table(map["noun" := Choices(["cat", "dog"])]);
      Candidates(sel, "noun1") == ["cat", "dog"] && Candidates(sel, "noun2") == ["cat", "dog"]
  {
    NoUpperLower("noun");
    assert NormalKey("noun1") == "noun" by { assert "noun1"[..4] == "noun"; }
    assert NormalKey("noun2") == "noun" by { assert "noun2"[..4] == "noun"; }
  }
}

=== FILE: permute.dfy ===
/** Reply generation: `_permute_message` (commenter.py:136-163) and the
    normalisation of a handler's return value done by `_wrapped`
    (commenter.py:65-78). The random choices are the parameter `draws`: the
    i-th call to `random.choice` in one templating run picks index
    `Nth(draws, i)` modulo the length of the list. */
module Permute {
  import opened Wrappers
  import opened Builtins
  import opened WordBank
  import opened Template

  /** A value passed as `postprocess` or `key`: `None`, a callable, or a
      string. */
  datatype Arg = NoArg | Callable(f: string -> string) | Str(s: string)

  predicate ArgTruthy(a: Arg) {
    match a
    case NoArg => false
    case Callable(_) => true
    case Str(s) => |s| > 0
  }

  /** The mapping placeholders are drawn from: `words[subreddit]`, or
      `traverse_dict(words, subreddit, key)` when `key` is truthy. A truthy
      non-string key takes the sequence branch of `traverse_dict`, and
      iterating a callable raises `TypeError`. */
  function Selections(words: map<string, Node>, subreddit: string, key: Arg): (r: Result<Option<Node>, PyError>)
    ensures !ArgTruthy(key) ==> r == Lookup(words, subreddit)
    ensures key.Str? && |key.s| > 0 ==> r == Traverse(words, subreddit, key.s)
  {
    match key
    case Str(k) => if |k| > 0 then Traverse(words, subreddit, k) else Lookup(words, subreddit)
    case Callable(_) => Failure(TypeError)
    case NoArg => Lookup(words, subreddit)
  }

  /** The words a placeholder name can be replaced by: the list its
      normalised name resolves to in `sel`, or nothing. */
  function Candidates(sel: Node, name: string): seq<string> {
    match sel
    case Choices(_) => []
    case Table(t) =>
      match Lookup(t, name)
      case Success(Some(Choices(ws))) => ws
      case _ => []
  }

  /** Draw number `n` yields word `w` for `name`. */
  predicate PicksAt(sel: Node, name: string, w: string, n: nat) {
    var c := Candidates(sel, name);
    |c| > 0 && c[n % |c|] == w
  }

  /** `random.choice(selections[name])` with index `i`: indexing a list with
      a string, or drawing from `None` or from a nested table, raises
      `TypeError`; drawing from an empty list raises `IndexError`. */
  function Pick(sel: Node, name: string, i: nat): (r: Result<string, PyError>)
    ensures r.Success? <==> |Candidates(sel, name)| > 0
    ensures r.Success? ==> r.value in Candidates(sel, name)
    ensures r.Success? ==> PicksAt(sel, name, r.value, i)
  {
    match sel
    case Choices(_) => Failure(TypeError)
    case Table(t) =>
      match Lookup(t, name)
      case Failure(e) => Failure(e)
      case Success(None) => Failure(TypeError)
      case Success(Some(Table(_))) => Failure(TypeError)
      case Success(Some(Choices(ws))) =>
        if |ws| == 0 then Failure(IndexError) else Success(ws[i % |ws|])
  }

  /** `{k: random.choice(selections[k]) for k in categories}`, one draw per
      occurrence starting at draw number `from`; a later occurrence of a name
      overwrites an earlier one. */
  function Choose(sel: Node, names: seq<string>, draws: seq<nat>, from: nat): (r: Result<map<string, string>, PyError>)
    ensures r.Success? <==> forall i :: 0 <= i < |names| ==> |Candidates(sel, names[i])| > 0
    ensures r.Success? ==> forall k :: k in r.value <==> k in names
    ensures r.Success? ==> forall k :: k in r.value ==> r.value[k] in Candidates(sel, k)
    decreases |names|
  {
    if |names| == 0 then Success(map[])
    else
      match Pick(sel, names[0], Nth(draws, from))
      case Failure(e) => Failure(e)
      case Success(w) =>
        match Choose(sel, names[1..], draws, from + 1)
        case Failure(e) => Failure(e)
        case Success(m) =>
          assert forall k :: k in names <==> k == names[0] || k in names[1..];
          Success(map[names[0] := w] + m)
  }

  /** Applying `postprocess` when it is truthy; calling a non-empty string
      raises `TypeError`. */
  function PostProcess(post: Arg, s: string): (r: Result<string, PyError>)
    ensures !ArgTruthy(post) ==> r == Success(s)
    ensures post.Callable? ==> r == Success(post.f(s))
    ensures post.Str? && |post.s| > 0 ==> r == Failure(TypeError)
  {
    match post
    case NoArg => Success(s)
    case Callable(f) => Success(f(s))
    case Str(p) => if |p| == 0 then Success(s) else Failure(TypeError)
  }

  /** The placeholder-filling step for a non-empty message: untouched when it
      holds no placeholder, a `KeyError` naming the subreddit when it does
      but the selections are falsy, otherwise a draw per placeholder and a
      `str.format`. */
  function Fill(msg: string, subreddit: string, sel: Option<Node>, draws: seq<nat>): (r: Result<string, PyError>)
    ensures FindAll(msg) == [] ==> r == Success(msg)
    ensures FindAll(msg) != [] && !Truthy(sel) ==> r == Failure(KeyError(subreddit))
  {
    var names := FindAll(msg);
    if |names| == 0 then Success(msg)
    else if !Truthy(sel) then Failure(KeyError(subreddit))
    else
      match Choose(sel.value, names, draws, 0)
      case Failure(e) => Failure(e)
      case Success(ch) => Format(msg, ch)
  }

  /** A successful fill of a message with placeholders is the parsed
      template with every placeholder name replaced by one word from the list
      its normalised name selects; every occurrence of a name gets the same
      word. */
  lemma FillSubstitutes(msg: string, subreddit: string, sel: Option<Node>, draws: seq<nat>)
    requires FindAll(msg) != [] && Fill(msg, subreddit, sel, draws).Success?
    ensures sel.Some? && Parse(msg).Success?
    ensures exists ch ::
      && Render(Parse(msg).value, ch) == Fill(msg, subreddit, sel, draws)
      && (forall k :: k in ch <==> k in FindAll(msg))
      && (forall k :: k in ch ==> ch[k] in Candidates(sel.value, k))
  {
    var names := FindAll(msg);
    FillUnfold(msg, subreddit, sel, draws);
    var ch := Choose(sel.value, names, draws, 0).value;
    FormatUnfold(msg, ch);
    assert Render(Parse(msg).value, ch) == Fill(msg, subreddit, sel, draws);
  }

  /** A message with placeholders and truthy selections, written with plain
      `{word}` fields only, is filled exactly when every placeholder name
      resolves to a non-empty word list and none is all digits. */
  lemma FillSucceeds(msg: string, subreddit: string, sel: Option<Node>, draws: seq<nat>)
    requires FindAll(msg) != [] && Truthy(sel) && Parse(msg).Success?
    ensures Fill(msg, subreddit, sel, draws).Success? <==>
      forall n :: n in FindAll(msg) ==> |Candidates(sel.value, n)| > 0 && !AllDigits(n)
  {
    var names := FindAll(msg);
    var c := Choose(sel.value, names, draws, 0);
    if c.Success? {
      FillChosen(msg, subreddit, sel, draws);
      ParseFindsAll(msg);
      ChosenNamesAvailable(sel.value, names, c.value);
    } else {
      FillNotChosen(msg, subreddit, sel, draws);
      var i :| 0 <= i < |names| && |Candidates(sel.value, names[i])| == 0;
      assert names[i] in names;
    }
  }

  lemma FillChosen(msg: string, subreddit: string, sel: Option<Node>, draws: seq<nat>)
    requires FindAll(msg) != [] && Truthy(sel) && Parse(msg).Success?
    requires Choose(sel.value, FindAll(msg), draws, 0).Success?
    ensures Fill(msg, subreddit, sel, draws)
         == Render(Parse(msg).value, Choose(sel.value, FindAll(msg), draws, 0).value)
  {
  }

  lemma FillNotChosen(msg: string, subreddit: string, sel: Option<Node>, draws: seq<nat>)
    requires FindAll(msg) != [] && Truthy(sel)
    requires Choose(sel.value, FindAll(msg), draws, 0).Failure?
    ensures Fill(msg, subreddit, sel, draws).Failure?
  {
  }

  /** With a successful choice, "every name is chosen and none is all
      digits" is "every name has candidates and none is all digits". */
  lemma ChosenNamesAvailable(sel: Node, names: seq<string>, ch: map<string, string>)
    requires forall k :: k in ch <==> k in names
    requires forall i :: 0 <= i < |names| ==> |Candidates(sel, names[i])| > 0
    ensures (forall n :: n in names ==> n in ch && !AllDigits(n))
        <==> (forall n :: n in names ==> |Candidates(sel, n)| > 0 && !AllDigits(n))
  {
    forall n | n in names
      ensures |Candidates(sel, n)| > 0
    {
      var i :| 0 <= i < |names| && names[i] == n;
    }
  }

  lemma FillUnfold(msg: string, subreddit: string, sel: Option<Node>, draws: seq<nat>)
    requires FindAll(msg) != [] && Fill(msg, subreddit, sel, draws).Success?
    ensures sel.Some? && Choose(sel.value, FindAll(msg), draws, 0).Success?
    ensures Fill(msg, subreddit, sel, draws) == Format(msg, Choose(sel.value, FindAll(msg), draws, 0).value)
  {
  }

  lemma FormatUnfold(msg: string, ch: map<string, string>)
    requires Format(msg, ch).Success?
    ensures Parse(msg).Success? && Render(Parse(msg).value, ch) == Format(msg, ch)
  {
  }

  /** `_permute_message(msg, subreddit, postprocess, key)`: `None` for an
      empty or missing message; otherwise the filled template, passed
      through `postprocess` when that is truthy. */
  function PermuteMessage(words: map<string, Node>, msg: Option<string>, subreddit: string,
                          post: Arg, key: Arg, draws: seq<nat>): (r: Result<Option<string>, PyError>)
    ensures msg.None? || msg.value == "" ==> r == Success(None)
    ensures r.Success? && r.value.Some? ==> msg.Some? && msg.value != ""
    ensures msg.Some? && msg.value != "" && FindAll(msg.value) != [] ==>
      match Selections(words, subreddit, key)
      case Success(sel) => !Truthy(sel) ==> r == Failure(KeyError(subreddit))
      case Failure(e) => r == Failure(e)
    ensures msg.Some? && msg.value != "" && FindAll(msg.value) == [] && !ArgTruthy(key) && subreddit != "" ==>
      match PostProcess(post, msg.value)
      case Success(out) => r == Success(Some(out))
      case Failure(e) => r == Failure(e)
  {
    if msg.None? || msg.value == "" then Success(None)
    else
      var sel :- Selections(words, subreddit, key);
      var text :- Fill(msg.value, subreddit, sel, draws);
      var out :- PostProcess(post, text);
      Success(Some(out))
  }

  /** A message without placeholders and without `key` does not depend on
      the word bank at all. */
  lemma NoPlaceholdersIgnoresWords(w1: map<string, Node>, w2: map<string, Node>, msg: Option<string>,
                                   subreddit: string, post: Arg, key: Arg, d1: seq<nat>, d2: seq<nat>)
    requires msg.Some? ==> FindAll(msg.value) == []
    requires !ArgTruthy(key) && subreddit != ""
    ensures PermuteMessage(w1, msg, subreddit, post, key, d1) == PermuteMessage(w2, msg, subreddit, post, key, d2)
  {
  }

  /** Without `key` and `postprocess`, a non-empty message is exactly the
      fill of `words[subreddit]`: its text or its exception. */
  lemma PermuteFills(words: map<string, Node>, m: string, subreddit: string, draws: seq<nat>)
    requires m != "" && Lookup(words, subreddit).Success?
    ensures PermuteMessage(words, Some(m), subreddit, NoArg, NoArg, draws) ==
      match Fill(m, subreddit, Lookup(words, subreddit).value, draws)
      case Success(text) => Success(Some(text))
      case Failure(e) => Failure(e)
  {
  }

  /** A non-empty `key` fills the message from the entry it names inside the
      subreddit's table, exactly as if that entry were the subreddit's own
      entry and no key were given. */
  lemma KeyReadsNestedEntry(words: map<string, Node>, msg: Option<string>, subreddit: string,
                            post: Arg, k: string, t: map<string, Node>, v: Node, draws: seq<nat>)
    requires |k| > 0
    requires Lookup(words, subreddit) == Success(Some(Table(t)))
    requires Lookup(t, k) == Success(Some(v))
    ensures |subreddit| > 0
    ensures PermuteMessage(words, msg, subreddit, post, Str(k), draws)
         == PermuteMessage(map[NormalKey(subreddit) := v], msg, subreddit, post, NoArg, draws)
  {
    var own := map[NormalKey(subreddit) := v];
    assert Lookup(own, subreddit) == Success(Some(v));
    assert Selections(words, subreddit, Str(k)) == Selections(own, subreddit, NoArg);
  }

  /** `postprocess` is applied once, to the filled text, and to nothing else:
      errors and `None` pass through untouched. */
  lemma PostProcessAfterFill(words: map<string, Node>, msg: Option<string>, subreddit: string,
                             f: string -> string, key: Arg, draws: seq<nat>)
    ensures PermuteMessage(words, msg, subreddit, Callable(f), key, draws) ==
      match PermuteMessage(words, msg, subreddit, NoArg, key, draws)
      case Success(Some(text)) => Success(Some(f(text)))
      case other => other
  {
  }

  /** When every placeholder resolves to a one-word list, the draws do not
      matter: the output is deterministic. */
  lemma {:induction false} ChooseDeterministic(sel: Node, names: seq<string>, d1: seq<nat>, d2: seq<nat>, f1: nat, f2: nat)
    requires forall i :: 0 <= i < |names| ==> |Candidates(sel, names[i])| == 1
    ensures Choose(sel, names, d1, f1) == Choose(sel, names, d2, f2)
    decreases |names|
  {
    if |names| > 0 {
      var rest := names[1..];
      assert forall i :: 0 <= i < |rest| ==> |Candidates(sel, rest[i])| == 1 by {
        forall i | 0 <= i < |rest| ensures |Candidates(sel, rest[i])| == 1 {
          assert rest[i] == names[i + 1];
        }
      }
      ChooseDeterministic(sel, rest, d1, d2, f1 + 1, f2 + 1);
      PickSingle(sel, names[0], Nth(d1, f1), Nth(d2, f2));
    }
  }

  lemma PickSingle(sel: Node, name: string, i: nat, j: nat)
    requires |Candidates(sel, name)| == 1
    ensures Pick(sel, name, i) == Pick(sel, name, j)
  {
    var c := Candidates(sel, name);
    assert i % 1 == 0 && j % 1 == 0;
    assert PicksAt(sel, name, Pick(sel, name, i).value, i);
    assert PicksAt(sel, name, Pick(sel, name, j).value, j);
  }

  lemma FillDeterministic(msg: string, subreddit: string, sel: Option<Node>, d1: seq<nat>, d2: seq<nat>)
    requires sel.Some? ==> forall i :: 0 <= i < |FindAll(msg)| ==> |Candidates(sel.value, FindAll(msg)[i])| == 1
    ensures Fill(msg, subreddit, sel, d1) == Fill(msg, subreddit, sel, d2)
  {
    if sel.Some? {
      ChooseDeterministic(sel.value, FindAll(msg), d1, d2, 0, 0);
    }
  }

  lemma PermuteDeterministic(words: map<string, Node>, msg: Option<string>, subreddit: string,
                             post: Arg, key: Arg, d1: seq<nat>, d2: seq<nat>)
    requires msg.Some? && Selections(words, subreddit, key).Success?
    requires var sel := Selections(words, subreddit, key).value;
      sel.Some? ==> forall i :: 0 <= i < |FindAll(msg.value)| ==> |Candidates(sel.value, FindAll(msg.value)[i])| == 1
    ensures PermuteMessage(words, msg, subreddit, post, key, d1) == PermuteMessage(words, msg, subreddit, post, key, d2)
  {
    FillDeterministic(msg.value, subreddit, Selections(words, subreddit, key).value, d1, d2);
  }

  /** Position of `x` in `s`. */
  function IndexOf<T(==)>(s: seq<T>, x: T): (i: nat)
    requires x in s
    ensures i < |s| && s[i] == x
  {
    if s[0] == x then 0 else 1 + IndexOf(s[1..], x)
  }

  /** Draw number `from + i` picks `ch[names[i]]`, for every position `i`. */
  predicate DrawsPick(sel: Node, names: seq<string>, ch: map<string, string>, draws: seq<nat>, from: nat) {
    forall i :: 0 <= i < |names| ==> names[i] in ch && PicksAt(sel, names[i], ch[names[i]], Nth(draws, from + i))
  }

  /** Draws that pick `ch[n]` for every occurrence of every name make the
      choice agree with `ch` on every name. */
  lemma {:induction false} ChooseFollowsDraw(sel: Node, names: seq<string>, ch: map<string, string>, draws: seq<nat>, from: nat)
    requires DrawsPick(sel, names, ch, draws, from)
    ensures Choose(sel, names, draws, from).Success?
    ensures forall k :: k in names ==> Choose(sel, names, draws, from).value[k] == ch[k]
    decreases |names|
  {
    if |names| > 0 {
      var rest := names[1..];
      assert DrawsPick(sel, rest, ch, draws, from + 1) by {
        forall i | 0 <= i < |rest|
          ensures rest[i] in ch && PicksAt(sel, rest[i], ch[rest[i]], Nth(draws, from + 1 + i))
        {
          assert rest[i] == names[i + 1];
          assert from + 1 + i == from + (i + 1);
        }
      }
      ChooseFollowsDraw(sel, rest, ch, draws, from + 1);
      assert Pick(sel, names[0], Nth(draws, from)) == Success(ch[names[0]]) by {
        assert PicksAt(sel, names[0], ch[names[0]], Nth(draws, from + 0));
        PickFollowsDraw(sel, names[0], ch[names[0]], Nth(draws, from));
      }
      ChooseStep(sel, names, draws, from);
      UnionAgrees(names, ch, Choose(sel, rest, draws, from + 1).value);
    }
  }

  lemma UnionAgrees(names: seq<string>, ch: map<string, string>, m: map<string, string>)
    requires |names| > 0 && forall k :: k in names ==> k in ch
    requires forall k :: k in m <==> k in names[1..]
    requires forall k :: k in names[1..] ==> m[k] == ch[k]
    ensures forall k :: k in names ==> k in map[names[0] := ch[names[0]]] + m
    ensures forall k :: k in names ==> (map[names[0] := ch[names[0]]] + m)[k] == ch[k]
  {
    forall k | k in names ensures k in map[names[0] := ch[names[0]]] + m && (map[names[0] := ch[names[0]]] + m)[k] == ch[k] {
      if k != names[0] {
        assert k in names[1..];
      }
    }
  }

  /** One step of `Choose`: the first name's word, overridden by the rest. */
  lemma ChooseStep(sel: Node, names: seq<string>, draws: seq<nat>, from: nat)
    requires |names| > 0 && Choose(sel, names[1..], draws, from + 1).Success?
    requires Pick(sel, names[0], Nth(draws, from)).Success?
    ensures Choose(sel, names, draws, from)
      == Success(map[names[0] := Pick(sel, names[0], Nth(draws, from)).value] + Choose(sel, names[1..], draws, from + 1).value)
  {
  }

  lemma PickFollowsDraw(sel: Node, name: string, w: string, n: nat)
    requires PicksAt(sel, name, w, n)
    ensures Pick(sel, name, n) == Success(w)
  {
  }

  /** The draws that select `ch[n]` for every occurrence of every name. */
  function DrawsFor(sel: Node, names: seq<string>, ch: map<string, string>): (r: seq<nat>)
    ensures |r| == |names|
  {
    if |names| == 0 then []
    else
      var c := Candidates(sel, names[0]);
      var i := if names[0] in ch && ch[names[0]] in c then IndexOf(c, ch[names[0]]) else 0;
      [i] + DrawsFor(sel, names[1..], ch)
  }

  lemma {:induction false} DrawsForPick(sel: Node, names: seq<string>, ch: map<string, string>, i: nat)
    requires i < |names| && names[i] in ch && ch[names[i]] in Candidates(sel, names[i])
    ensures PicksAt(sel, names[i], ch[names[i]], Nth(DrawsFor(sel, names, ch), i))
    decreases i
  {
    if i == 0 {
      DrawsForHead(sel, names, ch);
    } else {
      DrawsForPick(sel, names[1..], ch, i - 1);
      DrawsForTail(sel, names, ch, i);
    }
  }

  lemma DrawsForHead(sel: Node, names: seq<string>, ch: map<string, string>)
    requires |names| > 0 && names[0] in ch && ch[names[0]] in Candidates(sel, names[0])
    ensures PicksAt(sel, names[0], ch[names[0]], Nth(DrawsFor(sel, names, ch), 0))
  {
    var c := Candidates(sel, names[0]);
    var j := IndexOf(c, ch[names[0]]);
    assert Nth(DrawsFor(sel, names, ch), 0) == j;
    ModOfSmaller(j, |c|);
  }

  lemma DrawsForTail(sel: Node, names: seq<string>, ch: map<string, string>, i: nat)
    requires 0 < i < |names|
    ensures Nth(DrawsFor(sel, names, ch), i) == Nth(DrawsFor(sel, names[1..], ch), i - 1)
  {
  }

  /** Placeholders are drawn independently: every combination of words, one
      from each placeholder's list, is produced by some sequence of draws.
      In particular `{noun1}` and `{noun2}` may get different words from the
      same `noun` list. */
  lemma ChooseReachesEveryCombination(sel: Node, names: seq<string>, ch: map<string, string>)
    requires forall k :: k in ch <==> k in names
    requires forall k :: k in ch ==> ch[k] in Candidates(sel, k)
    ensures exists draws :: Choose(sel, names, draws, 0) == Success(ch)
  {
    var draws := DrawsFor(sel, names, ch);
    assert DrawsPick(sel, names, ch, draws, 0) by {
      forall i | 0 <= i < |names|
        ensures names[i] in ch && PicksAt(sel, names[i], ch[names[i]], Nth(draws, 0 + i))
      {
        DrawsForPick(sel, names, ch, i);
      }
    }
    ChooseExactly(sel, names, ch, draws);
  }

  /** Draws that pick `ch`'s word for every placeholder produce exactly
      `ch`. */
  lemma ChooseExactly(sel: Node, names: seq<string>, ch: map<string, string>, draws: seq<nat>)
    requires forall k :: k in ch <==> k in names
    requires DrawsPick(sel, names, ch, draws, 0)
    ensures Choose(sel, names, draws, 0) == Success(ch)
  {
    var r := Choose(sel, names, draws, 0);
    assert r.Success? && forall k :: k in names ==> r.value[k] == ch[k] by {
      ChooseFollowsDraw(sel, names, ch, draws, 0);
    }
    KeysAgree(names, r.value, ch);
  }

  lemma KeysAgree(names: seq<string>, m: map<string, string>, ch: map<string, string>)
    requires forall k :: k in m <==> k in names
    requires forall k :: k in ch <==> k in names
    requires forall k :: k in names ==> m[k] == ch[k]
    ensures m == ch
  {
    assert m.Keys == ch.Keys;
  }

  lemma ModOfSmaller(j: nat, n: nat)
    requires j < n
    ensures j % n == j
  {
  }

  // ---------------------------------------------------------------------
  // Handler results
  // ---------------------------------------------------------------------

  /** The options part of a handler's `(msg, args)` result: a dict, passed
      as keyword arguments, or anything else, passed positionally. */
  datatype Args = Keywords(kw: map<string, Arg>) | Positional(args: seq<Arg>)

  /** What a user handler returns: a falsy value, a string, or a
      `(msg, args)` pair. */
  datatype MessageSpec =
    | NoReply
    | Text(s: string)
    | WithArgs(msg: Option<string>, args: Args)

  /** The arguments `_permute_message` ends up called with. */
  datatype Call = Call(msg: Option<string>, post: Arg, key: Arg)

  /** Binding `_permute_message(msg, subreddit, *args)` or
      `(msg, subreddit, **args)`: unknown or repeated parameters and more
      than two extra positional arguments raise `TypeError`; missing ones
      default to `None`. */
  function Bind(msg: Option<string>, args: Args): (r: Result<Call, PyError>)
    ensures r.Success? ==> r.value.msg == msg
    ensures args.Keywords? ==> (r.Success? <==> args.kw.Keys <= {"postprocess", "key"})
    ensures args.Positional? ==> (r.Success? <==> |args.args| <= 2)
  {
    match args
    case Keywords(kw) =>
      if kw.Keys <= {"postprocess", "key"} then
        Success(Call(msg, if "postprocess" in kw then kw["postprocess"] else NoArg,
                          if "key" in kw then kw["key"] else NoArg))
      else Failure(TypeError)
    case Positional(a) =>
      if |a| <= 2 then
        Success(Call(msg, if |a| > 0 then a[0] else NoArg, if |a| > 1 then a[1] else NoArg))
      else Failure(TypeError)
  }

  /** `_wrapped`'s normalisation: a falsy or string result is a message with
      the single positional argument `None`. */
  function Normalise(spec: MessageSpec): (r: Result<Call, PyError>)
    ensures spec.NoReply? ==> r == Success(Call(None, NoArg, NoArg))
    ensures spec.Text? ==> r == Success(Call(Some(spec.s), NoArg, NoArg))
  {
    match spec
    case NoReply => Bind(None, Positional([NoArg]))
    case Text(s) => Bind(Some(s), Positional([NoArg]))
    case WithArgs(m, a) => Bind(m, a)
  }

  /** The replier stored in the registry: the handler's result, normalised
      and run through the template engine for `subreddit`. */
  function Wrapped(words: map<string, Node>, subreddit: string, spec: MessageSpec, draws: seq<nat>): (r: Result<Option<string>, PyError>)
    ensures spec.NoReply? || spec == Text("") ==> r == Success(None)
    ensures spec.WithArgs? && spec.args.Keywords? && !(spec.args.kw.Keys <= {"postprocess", "key"}) ==> r == Failure(TypeError)
  {
    var call :- Normalise(spec);
    PermuteMessage(words, call.msg, subreddit, call.post, call.key, draws)
  }

  /** Keyword and positional options mean the same thing. */
  lemma KeywordsMatchPositional(words: map<string, Node>, subreddit: string, msg: Option<string>,
                                post: Arg, key: Arg, draws: seq<nat>)
    ensures Wrapped(words, subreddit, WithArgs(msg, Keywords(map["postprocess" := post, "key" := key])), draws)
         == Wrapped(words, subreddit, WithArgs(msg, Positional([post, key])), draws)
  {
    var kw := map["postprocess" := post, "key" := key];
    assert kw.Keys == {"postprocess", "key"};
  }

  /** A bare string is the same as a pair with no options. */
  lemma TextMeansNoOptions(words: map<string, Node>, subreddit: string, s: string, draws: seq<nat>)
    ensures Wrapped(words, subreddit, Text(s), draws) == Wrapped(words, subreddit, WithArgs(Some(s), Keywords(map[])), draws)
    ensures Wrapped(words, subreddit, Text(s), draws) == Wrapped(words, subreddit, WithArgs(Some(s), Positional([])), draws)
  {
  }
}

=== FILE: registry.dfy ===
/** The reply registry: one pool of registrations per content kind
    (commenter.py:60-95), and the removal of a banned subreddit from every
    pool (commenter.py:131-134). A registration is generic in what it
    routes to (`R`): in the bot it is the wrapped handler, the listing name
    and the filter. */
module Registry {
  import opened Builtins

  /** One pool element: the subreddit's display name and its route. */
  datatype Entry<R> = Entry(subreddit: string, route: R)

  datatype Kind = Comments | Submissions

  /** The pools keyed by the two reply functions in `_func_mapping`. */
  datatype Registry<R> = Registry(comments: seq<Entry<R>>, submissions: seq<Entry<R>>) {
    function Pool(kind: Kind): seq<Entry<R>> {
      match kind
      case Comments => comments
      case Submissions => submissions
    }

    function WithPool(kind: Kind, pool: seq<Entry<R>>): (r: Registry<R>)
      ensures r.Pool(kind) == pool
      ensures forall k :: k != kind ==> r.Pool(k) == Pool(k)
    {
      match kind
      case Comments => Registry(pool, submissions)
      case Submissions => Registry(comments, pool)
    }
  }

  /** Python 2.7's `random.shuffle(pool)`: for `i` from the last index down
      to 1, swap element `i` with element `j`, where `j` is the next draw
      modulo `i + 1`. The result is a permutation of the input. */
  method Shuffle<T>(s: seq<T>, draws: seq<nat>) returns (r: seq<T>)
    ensures |r| == |s|
    ensures multiset(r) == multiset(s)
  {
    r := s;
    var i := |s|;
    while i > 1
      invariant 0 <= i <= |s|
      invariant |r| == |s|
      invariant multiset(r) == multiset(s)
    {
      i := i - 1;
      var j := Nth(draws, |s| - 1 - i) % (i + 1);
      r := r[i := r[j]][j := r[i]];
    }
  }

  /** Decorating a handler: append `(sub, route)` to the kind's pool, then
      shuffle the whole pool. The pool grows by exactly that entry, in some
      order; the other kind's pool is untouched. */
  method Register<R>(reg: Registry<R>, kind: Kind, e: Entry<R>, draws: seq<nat>) returns (r: Registry<R>)
    ensures |r.Pool(kind)| == |reg.Pool(kind)| + 1
    ensures multiset(r.Pool(kind)) == multiset(reg.Pool(kind)) + multiset{e}
    ensures forall k :: k != kind ==> r.Pool(k) == reg.Pool(k)
  {
    var pool := Shuffle(reg.Pool(kind) + [e], draws);
    r := reg.WithPool(kind, pool);
  }

  /** One pool without the entries of a subreddit, other entries keeping
      their order (the list comprehension of `_remove_subreddit`). */
  function Without<R(!new)>(pool: seq<Entry<R>>, name: string): (r: seq<Entry<R>>)
    ensures |r| <= |pool|
    ensures forall e :: e in r <==> e in pool && e.subreddit != name
  {
    Keep(pool, (e: Entry<R>) => e.subreddit != name)
  }

  /** `_remove_subreddit(name)`: both pools lose every entry whose display
      name is `name` and keep every other one. */
  function RemoveSubreddit<R(!new)>(reg: Registry<R>, name: string): (r: Registry<R>)
    ensures forall k, e :: e in r.Pool(k) ==> e.subreddit != name
    ensures forall k, e :: e in reg.Pool(k) && e.subreddit != name ==> e in r.Pool(k)
    ensures forall k :: |r.Pool(k)| <= |reg.Pool(k)|
  {
    Registry(Without(reg.comments, name), Without(reg.submissions, name))
  }

  /** Removal keeps relative order: it acts on a pool piece by piece. */
  lemma WithoutAppend<R(!new)>(a: seq<Entry<R>>, b: seq<Entry<R>>, name: string)
    ensures Without(a + b, name) == Without(a, name) + Without(b, name)
  {
    KeepAppend(a, b, (e: Entry<R>) => e.subreddit != name);
  }

  /** Removing a name that no entry carries changes nothing, and only
      then. */
  lemma RemoveAbsent<R(!new)>(reg: Registry<R>, name: string)
    ensures RemoveSubreddit(reg, name) == reg <==>
      forall e :: e in reg.comments || e in reg.submissions ==> e.subreddit != name
  {
    WithoutIdentity(reg.comments, name);
    WithoutIdentity(reg.submissions, name);
  }

  lemma WithoutIdentity<R(!new)>(pool: seq<Entry<R>>, name: string)
    ensures Without(pool, name) == pool <==> forall e :: e in pool ==> e.subreddit != name
  {
    KeepIdentity(pool, (e: Entry<R>) => e.subreddit != name);
  }

  /** A second removal of the same name is a no-op. */
  lemma RemoveIdempotent<R(!new)>(reg: Registry<R>, name: string)
    ensures RemoveSubreddit(RemoveSubreddit(reg, name), name) == RemoveSubreddit(reg, name)
  {
    RemoveAbsent(RemoveSubreddit(reg, name), name);
  }

  /** Removals of two names commute. */
  lemma RemoveCommutes<R(!new)>(reg: Registry<R>, a: string, b: string)
    ensures RemoveSubreddit(RemoveSubreddit(reg, a), b) == RemoveSubreddit(RemoveSubreddit(reg, b), a)
  {
    WithoutCommutes(reg.comments, a, b);
    WithoutCommutes(reg.submissions, a, b);
  }

  lemma {:induction false} WithoutCommutes<R(!new)>(pool: seq<Entry<R>>, a: string, b: string)
    ensures Without(Without(pool, a), b) == Without(Without(pool, b), a)
    decreases |pool|
  {
    if |pool| > 0 {
      var head, tail := [pool[0]], pool[1..];
      assert pool == head + tail;
      WithoutAppend(head, tail, a);
      WithoutAppend(head, tail, b);
      WithoutAppend(Without(head, a), Without(tail, a), b);
      WithoutAppend(Without(head, b), Without(tail, b), a);
      WithoutCommutes(tail, a, b);
    }
  }
}

=== FILE: repliers.dfy ===
/** One reply step for one registration: `_reply_to_comments` and
    `_reply_to_submissions` (commenter.py:165-174), and the filter factories
    `min_length` and `contains` (commenter.py:195-205). Listings are given
    as sequences; which listed item `random.choice` picks is the parameter
    `pick`. */
module Repliers {
  import opened Wrappers
  import opened Builtins
  import opened WordBank
  import opened Permute
  import opened Registry
  import opened Dispatch

  /** What a decorator stores next to the subreddit: the user's handler,
      the listing name and the `only` filter. */
  datatype Route = Route(handler: Option<Content> -> MessageSpec, listing: string, only: Content -> bool)

  // ---------------------------------------------------------------------
  // Filters
  // ---------------------------------------------------------------------

  /** `min_length(n)` applied to `content`. */
  function MinLength(n: int, content: Content): (r: bool)
    ensures r <==> n <= |content.body|
  {
    |content.body| >= n
  }

  /** `contains(s)` applied to `content`: `s` is one of the
      whitespace-separated words of the lower-cased body. Only a non-empty
      lower-case `s` without whitespace can ever match. */
  function Contains(s: string, content: Content): (r: bool)
    ensures r ==> IsWord(s)
    ensures r ==> forall i :: 0 <= i < |s| ==> !IsUpper(s[i])
  {
    var words := Split(Lower(content.body));
    if s in words then
      assert forall i :: 0 <= i < |s| ==> s[i] in s;
      true
    else false
  }

  /** A longer minimum keeps fewer items; a non-positive one keeps all. */
  lemma MinLengthMonotone(n: int, m: int, content: Content)
    requires n <= m
    ensures MinLength(m, content) ==> MinLength(n, content)
    ensures n <= 0 ==> MinLength(n, content)
  {
  }

  lemma {:induction false} LowerAppend(a: string, b: string)
    ensures Lower(a + b) == Lower(a) + Lower(b)
  {
    assert |Lower(a + b)| == |Lower(a) + Lower(b)|;
    forall i | 0 <= i < |a + b|
      ensures Lower(a + b)[i] == (Lower(a) + Lower(b))[i]
    {
      if i < |a| {
        assert (a + b)[i] == a[i];
      } else {
        assert (a + b)[i] == b[i - |a|];
      }
    }
  }

  predicate NoUpper(s: string) {
    forall i :: 0 <= i < |s| ==> !IsUpper(s[i])
  }

  lemma {:induction false} LowerJoin(words: seq<string>)
    requires forall i :: 0 <= i < |words| ==> NoUpper(words[i])
    ensures Lower(Join(words)) == Join(words)
    decreases |words|
  {
    if |words| == 1 {
      assert Lower(words[0]) == words[0];
    } else if |words| > 1 {
      LowerJoin(words[1..]);
      LowerAppend(words[0] + " ", Join(words[1..]));
      LowerAppend(words[0], " ");
      assert Lower(words[0]) == words[0];
      assert Lower(" ") == " ";
    }
  }

  /** Each word lower-cased. */
  function LowerAll(words: seq<string>): (r: seq<string>)
    ensures |r| == |words|
    ensures forall i :: 0 <= i < |words| ==> r[i] == Lower(words[i])
  {
    seq(|words|, i requires 0 <= i < |words| => Lower(words[i]))
  }

  lemma LowerBlank(g: string)
    requires IsBlank(g)
    ensures Lower(g) == g
  {
    assert forall i :: 0 <= i < |g| ==> !IsUpper(g[i]);
  }

  lemma LowerWord(w: string)
    requires IsWord(w)
    ensures IsWord(Lower(w))
  {
    var r := Lower(w);
    forall i | 0 <= i < |r|
      ensures !IsSpace(r[i])
    {
      if IsUpper(w[i]) {
        assert 'a' as int <= r[i] as int <= 'z' as int;
      }
    }
  }

  /** Lower-casing a layout lower-cases its words and keeps its whitespace. */
  lemma {:induction false} LowerLayout(words: seq<string>, gaps: seq<string>)
    requires Separates(words, gaps)
    ensures Lower(Layout(words, gaps)) == Layout(LowerAll(words), gaps)
    decreases |words|
  {
    LowerBlank(gaps[0]);
    if |words| > 0 {
      var rest := Layout(words[1..], gaps[1..]);
      assert Separates(words[1..], gaps[1..]);
      LowerLayout(words[1..], gaps[1..]);
      assert LowerAll(words)[1..] == LowerAll(words[1..]);
      LowerAppend(gaps[0] + words[0], rest);
      LowerAppend(gaps[0], words[0]);
    }
  }

  /** On any body, whatever its case and whatever whitespace separates,
      precedes or follows its words, `contains(s)` holds exactly when `s`
      is one of those words lower-cased. */
  lemma ContainsWholeWord(s: string, words: seq<string>, gaps: seq<string>, id: string, subreddit: string)
    requires forall i :: 0 <= i < |words| ==> IsWord(words[i])
    requires Separates(words, gaps)
    ensures Contains(s, Content(id, Layout(words, gaps), subreddit))
        <==> exists i :: 0 <= i < |words| && s == Lower(words[i])
  {
    var lw := LowerAll(words);
    LowerLayout(words, gaps);
    forall i | 0 <= i < |lw|
      ensures IsWord(lw[i])
    {
      LowerWord(words[i]);
    }
    SplitLayout(lw, gaps);
    assert s in lw <==> exists i :: 0 <= i < |words| && s == lw[i];
  }

  /** A no-break space separates words just as a space does:
      `contains("cats")` accepts `"cats\u00a0rule"`. */
  lemma NoBreakSpaceSeparates(id: string, subreddit: string)
    ensures Contains("cats", Content(id, "cats\U{a0}rule", subreddit))
  {
    var words, gaps := ["cats", "rule"], ["", "\U{a0}", ""];
    assert Layout(words[1..], gaps[1..]) == "\U{a0}rule" by {
      assert Layout(words[2..], gaps[2..]) == "";
    }
    assert Layout(words, gaps) == "cats\U{a0}rule";
    ContainsWholeWord("cats", words, gaps, id, subreddit);
    assert "cats" == Lower(words[0]);
  }

  /** A phrase of several words never matches: the words `split` returns
      hold no whitespace. */
  lemma ContainsRejectsPhrase(content: Content)
    ensures !Contains("some phrase", content)
  {
    var s := "some phrase";
    assert !IsWord(s) by { assert IsSpace(s[4]); }
  }

  /** `xs` occurs as a contiguous run inside `ys`. */
  predicate IsInfix(xs: seq<string>, ys: seq<string>)
    decreases |ys|
  {
    |xs| <= |ys| && (ys[..|xs|] == xs || (|ys| > 0 && IsInfix(xs, ys[1..])))
  }

  /** The phrase filter the usage comment at commenter.py:190-193 describes:
      the lower-cased words of `s` occur, consecutively, among the
      lower-cased words of the body. */
  function ContainsPhrase(s: string, content: Content): (r: bool)
    ensures r ==> Split(Lower(s)) != []
  {
    var phrase := Split(Lower(s));
    |phrase| > 0 && IsInfix(phrase, Split(Lower(content.body)))
  }

  lemma {:induction false} InfixSingleton(x: string, ys: seq<string>)
    ensures IsInfix([x], ys) <==> x in ys
    decreases |ys|
  {
    if |ys| > 0 {
      InfixSingleton(x, ys[1..]);
      assert x in ys <==> ys[0] == x || x in ys[1..];
    }
  }

  /** The phrase filter agrees with `contains` wherever `contains` can
      match: on a single lower-case word. */
  lemma ContainsPhraseExtendsContains(s: string, content: Content)
    requires IsWord(s) && NoUpper(s)
    ensures ContainsPhrase(s, content) <==> Contains(s, content)
  {
    LowerJoin([s]);
    SplitJoin([s]);
    InfixSingleton(s, Split(Lower(content.body)));
  }

  /** The phrase filter ignores case in the phrase. */
  lemma ContainsPhraseIgnoresCase(s: string, content: Content)
    ensures ContainsPhrase(Lower(s), content) == ContainsPhrase(s, content)
  {
    LowerIdempotent(s);
  }

  /** The words of a body built from lower-case words are those words. */
  lemma WordsOfJoin(words: seq<string>)
    requires forall i :: 0 <= i < |words| ==> IsWord(words[i]) && NoUpper(words[i])
    ensures Split(Lower(Join(words))) == words
  {
    LowerJoin(words);
    SplitJoin(words);
  }

  /** The usage example `contains("some phrase")` applied to a body holding
      that phrase: the phrase filter accepts it, `contains` does not. */
  lemma PhraseExample()
    ensures var c := Content("c1", "say some phrase", "test");
      ContainsPhrase("some phrase", c) && !Contains("some phrase", c)
  {
    var c := Content("c1", "say some phrase", "test");
    ContainsRejectsPhrase(c);
    var body: seq<string> := ["say", "some", "phrase"];
    var phrase: seq<string> := ["some", "phrase"];
    PhraseWords();
    BodyWords();
    assert IsInfix(phrase, body) by {
      assert body[1..][..2] == phrase;
      assert IsInfix(phrase, body[1..]);
    }
  }

  lemma PhraseWords()
    ensures Split(Lower("some phrase")) == ["some", "phrase"]
  {
    var phrase: seq<string> := ["some", "phrase"];
    assert Join(phrase) == "some phrase" by {
      assert phrase[1..] == ["phrase"];
    }
    assert IsWord("some") && NoUpper("some");
    assert IsWord("phrase") && NoUpper("phrase");
    WordsOfJoin(phrase);
  }

  lemma BodyWords()
    ensures Split(Lower("say some phrase")) == ["say", "some", "phrase"]
  {
    var body: seq<string> := ["say", "some", "phrase"];
    assert Join(body) == "say some phrase" by {
      assert body[1..] == ["some", "phrase"];
      assert ["some", "phrase"][1..] == ["phrase"];
    }
    assert IsWord("say") && NoUpper("say");
    assert IsWord("some") && NoUpper("some");
    assert IsWord("phrase") && NoUpper("phrase");
    WordsOfJoin(body);
  }

  // ---------------------------------------------------------------------
  // One reply step
  // ---------------------------------------------------------------------

  /** `filter(only, listing)` followed by `random.choice(...)`, or `None`
      when nothing passes the filter. */
  function PickContent(items: seq<Content>, only: Content -> bool, pick: nat): (r: Option<Content>)
    ensures r.None? <==> forall c :: c in items ==> !only(c)
    ensures r.Some? ==> r.value in items && only(r.value)
  {
    var passing := Keep(items, only);
    if |passing| == 0 then None
    else
      assert passing[0] in passing;
      Some(passing[pick % |passing|])
  }

  /** Every item that passes the filter is picked by some draw. */
  lemma PickReachesEvery(items: seq<Content>, only: Content -> bool, c: Content)
    requires c in items && only(c)
    ensures exists pick :: PickContent(items, only, pick) == Some(c)
  {
    var passing := Keep(items, only);
    var i := IndexOf(passing, c);
    ModOfSmaller(i, |passing|);
    assert PickContent(items, only, i) == Some(c);
  }

  /** The shared body of both reply functions: pick, call the handler (also
      with `None`), render its result, and post. An exception from the
      handler's templating propagates and nothing is posted. */
  function ReplyFrom(bot: Bot<Route>, words: map<string, Node>, subreddit: string, route: Route,
                     items: seq<Content>, pick: nat, draws: seq<nat>, outcomes: seq<PostOutcome>)
    : (r: Result<Dispatched<Route>, PyError>)
    ensures var content := PickContent(items, route.only, pick);
      match Wrapped(words, subreddit, route.handler(content), draws)
      case Failure(e) => r == Failure(e)
      case Success(comment) => r == Success(MakeComment(bot, content, comment, outcomes))
  {
    var content := PickContent(items, route.only, pick);
    var comment :- Wrapped(words, subreddit, route.handler(content), draws);
    Success(MakeComment(bot, content, comment, outcomes))
  }

  /** `_reply_to_comments`: the subreddit's comment stream, filtered; the
      listing name is not used. When nothing passes the filter the handler
      still runs, on `None`, and the step ends with the unsuitable-content
      sentinel. Anything posted came from the stream and passed the
      filter. */
  function ReplyToComments(bot: Bot<Route>, words: map<string, Node>, subreddit: string, route: Route,
                           comments: seq<Content>, pick: nat, draws: seq<nat>, outcomes: seq<PostOutcome>)
    : (r: Result<Dispatched<Route>, PyError>)
    ensures (forall c :: c in comments ==> !route.only(c)) ==>
      match Wrapped(words, subreddit, route.handler(None), draws)
      case Failure(e) => r == Failure(e)
      case Success(_) => r == Success(Dispatched(Returned(Unsuitable), bot, [], 0))
    ensures r.Success? && r.value.bot.replied != bot.replied ==>
      exists c ::
        && c in comments
        && route.only(c)
        && r.value.bot.replied == bot.replied + {c.id}
  {
    ReplyFrom(bot, words, subreddit, route, comments, pick, draws, outcomes)
  }

  /** `_reply_to_submissions`: like comments, but over the listing the
      route names; `listed(name)` stands for fetching listing `name` of the
      subreddit. */
  function ReplyToSubmissions(bot: Bot<Route>, words: map<string, Node>, subreddit: string, route: Route,
                              listed: string -> seq<Content>, pick: nat, draws: seq<nat>, outcomes: seq<PostOutcome>)
    : (r: Result<Dispatched<Route>, PyError>)
    ensures (forall c :: c in listed(route.listing) ==> !route.only(c)) ==>
      match Wrapped(words, subreddit, route.handler(None), draws)
      case Failure(e) => r == Failure(e)
      case Success(_) => r == Success(Dispatched(Returned(Unsuitable), bot, [], 0))
    ensures r.Success? && r.value.bot.replied != bot.replied ==>
      exists c ::
        && c in listed(route.listing)
        && route.only(c)
        && r.value.bot.replied == bot.replied + {c.id}
  {
    ReplyFrom(bot, words, subreddit, route, listed(route.listing), pick, draws, outcomes)
  }

  /** The main path of `_reply_to_comments`: the picked comment goes to the
      handler, and its non-empty reply is posted through `_make_comment`,
      which returns it and records the comment's id. */
  lemma ReplyToCommentsPosts(bot: Bot<Route>, words: map<string, Node>, subreddit: string, route: Route,
                             comments: seq<Content>, pick: nat, draws: seq<nat>, outcomes: seq<PostOutcome>,
                             c: Content, m: string)
    requires PickContent(comments, route.only, pick) == Some(c)
    requires Wrapped(words, subreddit, route.handler(Some(c)), draws) == Success(Some(m))
    requires !Unsuited(bot, Some(c), Some(m))
    requires FirstTerminal(outcomes) < |outcomes| && outcomes[FirstTerminal(outcomes)] == Posted
    ensures var r := ReplyToComments(bot, words, subreddit, route, comments, pick, draws, outcomes);
      && r.Success?
      && r.value.reply == Returned(m)
      && r.value.bot.replied == bot.replied + {c.id}
  {
    assert ReplyToComments(bot, words, subreddit, route, comments, pick, draws, outcomes)
        == ReplyFrom(bot, words, subreddit, route, comments, pick, draws, outcomes);
    ReplyFromPosts(bot, words, subreddit, route, comments, pick, draws, outcomes, c, m);
  }

  /** The same main path for `_reply_to_submissions`, over the listing the
      route names. */
  lemma ReplyToSubmissionsPosts(bot: Bot<Route>, words: map<string, Node>, subreddit: string, route: Route,
                                listed: string -> seq<Content>, pick: nat, draws: seq<nat>,
                                outcomes: seq<PostOutcome>, c: Content, m: string)
    requires PickContent(listed(route.listing), route.only, pick) == Some(c)
    requires Wrapped(words, subreddit, route.handler(Some(c)), draws) == Success(Some(m))
    requires !Unsuited(bot, Some(c), Some(m))
    requires FirstTerminal(outcomes) < |outcomes| && outcomes[FirstTerminal(outcomes)] == Posted
    ensures var r := ReplyToSubmissions(bot, words, subreddit, route, listed, pick, draws, outcomes);
      && r.Success?
      && r.value.reply == Returned(m)
      && r.value.bot.replied == bot.replied + {c.id}
  {
    assert ReplyToSubmissions(bot, words, subreddit, route, listed, pick, draws, outcomes)
        == ReplyFrom(bot, words, subreddit, route, listed(route.listing), pick, draws, outcomes);
    ReplyFromPosts(bot, words, subreddit, route, listed(route.listing), pick, draws, outcomes, c, m);
  }

  lemma ReplyFromPosts(bot: Bot<Route>, words: map<string, Node>, subreddit: string, route: Route,
                       items: seq<Content>, pick: nat, draws: seq<nat>, outcomes: seq<PostOutcome>,
                       c: Content, m: string)
    requires PickContent(items, route.only, pick) == Some(c)
    requires Wrapped(words, subreddit, route.handler(Some(c)), draws) == Success(Some(m))
    requires !Unsuited(bot, Some(c), Some(m))
    requires FirstTerminal(outcomes) < |outcomes| && outcomes[FirstTerminal(outcomes)] == Posted
    ensures var r := ReplyFrom(bot, words, subreddit, route, items, pick, draws, outcomes);
      && r.Success?
      && r.value.reply == Returned(m)
      && r.value.bot.replied == bot.replied + {c.id}
  {
    ReplyFromDispatches(bot, words, subreddit, route, items, pick, draws, outcomes, c, m);
    MakeCommentPosts(bot, c, m, outcomes);
  }

  lemma ReplyFromDispatches(bot: Bot<Route>, words: map<string, Node>, subreddit: string, route: Route,
                            items: seq<Content>, pick: nat, draws: seq<nat>, outcomes: seq<PostOutcome>,
                            c: Content, m: string)
    requires PickContent(items, route.only, pick) == Some(c)
    requires Wrapped(words, subreddit, route.handler(Some(c)), draws) == Success(Some(m))
    ensures ReplyFrom(bot, words, subreddit, route, items, pick, draws, outcomes)
         == Success(MakeComment(bot, Some(c), Some(m), outcomes))
  {
  }

  /** The comment path ignores the listing name. */
  lemma CommentsIgnoreListing(bot: Bot<Route>, words: map<string, Node>, subreddit: string, route: Route,
                              other: string, comments: seq<Content>, pick: nat, draws: seq<nat>, outcomes: seq<PostOutcome>)
    ensures ReplyToComments(bot, words, subreddit, route, comments, pick, draws, outcomes)
         == ReplyToComments(bot, words, subreddit, route.(listing := other), comments, pick, draws, outcomes)
  {
  }
}

=== FILE: template.dfy ===
/** Placeholder templates: the `re.findall(r"{(\w+)}", msg)` scan and the
    part of `str.format(**choices)` that plain `{word}` fields exercise
    (commenter.py:152-158). */
module Template {
  import opened Wrappers
  import opened Builtins

  /** The characters of the regular expression class `\w` (ASCII). */
  predicate IsWordChar(c: char) {
    ('a' <= c <= 'z') || ('A' <= c <= 'Z') || ('0' <= c <= '9') || c == '_'
  }

  /** A placeholder name: what `\w+` matches. */
  predicate IsName(n: string) {
    |n| > 0 && forall i :: 0 <= i < |n| ==> IsWordChar(n[i])
  }

  /** Length of the leading run of `\w` characters. */
  function WordRun(s: string): (n: nat)
    ensures n <= |s|
    ensures forall i :: 0 <= i < n ==> IsWordChar(s[i])
    ensures n < |s| ==> !IsWordChar(s[n])
  {
    if |s| == 0 || !IsWordChar(s[0]) then 0 else 1 + WordRun(s[1..])
  }

  /** Length of the `{name}` field at the start of `s`, or 0 if there is
      none. The greedy `\w+` never needs to back off: a shorter run would be
      followed by a word character, not by `}`. */
  function FieldLen(s: string): (n: nat)
    ensures n == 0 || (3 <= n <= |s| && s[0] == '{' && s[n - 1] == '}' && IsName(s[1..n - 1]))
  {
    if |s| == 0 || s[0] != '{' then 0
    else
      var k := WordRun(s[1..]);
      if k > 0 && k + 1 < |s| && s[k + 1] == '}' then k + 2 else 0
  }

  /** `re.findall(r"{(\w+)}", s)`: the names of all non-overlapping fields,
      left to right, repeats included. */
  function FindAll(s: string): (r: seq<string>)
    ensures forall i :: 0 <= i < |r| ==> IsName(r[i])
    decreases |s|
  {
    if |s| == 0 then []
    else
      var n := FieldLen(s);
      if n > 0 then [s[1..n - 1]] + FindAll(s[n..]) else FindAll(s[1..])
  }

  /** A `{name}` field at the start is found, whole. */
  lemma FieldLenOfField(name: string, rest: string)
    requires IsName(name)
    ensures FieldLen("{" + name + "}" + rest) == |name| + 2
  {
    var s := "{" + name + "}" + rest;
    assert s[1..] == name + ("}" + rest);
    WordRunOfName(name, "}" + rest);
  }

  /** The scan reports a leading field and carries on after it. */
  lemma FindAllLeadingField(name: string, rest: string)
    requires IsName(name)
    ensures FindAll("{" + name + "}" + rest) == [name] + FindAll(rest)
  {
    var s := "{" + name + "}" + rest;
    FieldLenOfField(name, rest);
    assert s[1..|name| + 1] == name;
    assert s[|name| + 2..] == rest;
  }

  /** Text without `{` contributes no names, whatever else it holds
      (a lone `}` included). */
  lemma {:induction false} FindAllSkipsText(a: string, rest: string)
    requires forall i :: 0 <= i < |a| ==> a[i] != '{'
    ensures FindAll(a + rest) == FindAll(rest)
    decreases |a|
  {
    if |a| > 0 {
      assert (a + rest)[0] == a[0];
      assert (a + rest)[1..] == a[1..] + rest;
      FindAllSkipsText(a[1..], rest);
    } else {
      assert a + rest == rest;
    }
  }

  /** The scan finds nothing exactly when no position of `s` starts a
      `{name}` field. */
  lemma {:induction false} FindAllEmpty(s: string)
    ensures FindAll(s) == [] <==> forall i :: 0 <= i < |s| ==> FieldLen(s[i..]) == 0
    decreases |s|
  {
    if |s| > 0 {
      FindAllEmpty(s[1..]);
      assert s[0..] == s;
      forall i | 1 <= i < |s|
        ensures s[i..] == s[1..][i - 1..]
      {
      }
      if FieldLen(s) == 0 {
        assert (forall i :: 0 <= i < |s| ==> FieldLen(s[i..]) == 0)
           <==> (forall i :: 0 <= i < |s[1..]| ==> FieldLen(s[1..][i..]) == 0) by {
          if forall i :: 0 <= i < |s[1..]| ==> FieldLen(s[1..][i..]) == 0 {
            forall i | 0 <= i < |s|
              ensures FieldLen(s[i..]) == 0
            {
              if i > 0 {
                assert FieldLen(s[1..][i - 1..]) == 0;
              }
            }
          }
        }
      }
    }
  }

  /** A parsed template: literal characters and `{name}` fields. */
  datatype Piece = Lit(c: char) | Field(name: string)

  predicate WellFormed(t: seq<Piece>) {
    forall i :: 0 <= i < |t| ==>
      match t[i]
      case Lit(c) => c != '{' && c != '}'
      case Field(n) => IsName(n)
  }

  /** The field names of a template, in order. */
  function Fields(t: seq<Piece>): seq<string> {
    if |t| == 0 then []
    else (if t[0].Field? then [t[0].name] else []) + Fields(t[1..])
  }

  /** The text a template is written as. */
  function Unparse(t: seq<Piece>): string {
    if |t| == 0 then ""
    else
      match t[0]
      case Lit(c) => [c] + Unparse(t[1..])
      case Field(n) => "{" + n + "}" + Unparse(t[1..])
  }

  /** How `str.format` reads the template, restricted to `{name}` fields:
      every other brace (escaped `{{`/`}}`, attribute, index, conversion or
      format-spec fields, a lone `}`) is outside the model. The template is
      recovered exactly from the parse. */
  function Parse(s: string): (r: Result<seq<Piece>, PyError>)
    ensures r.Success? ==> WellFormed(r.value) && Unparse(r.value) == s
    ensures r.Failure? ==> r.error == UnsupportedFormat
    decreases |s|
  {
    if |s| == 0 then Success([])
    else
      var n := FieldLen(s);
      if n > 0 then
        match Parse(s[n..])
        case Failure(e) => Failure(e)
        case Success(rest) =>
          SplitField(s, n);
          Success([Field(s[1..n - 1])] + rest)
      else if s[0] == '{' || s[0] == '}' then Failure(UnsupportedFormat)
      else
        match Parse(s[1..])
        case Failure(e) => Failure(e)
        case Success(rest) =>
          SplitLit(s);
          Success([Lit(s[0])] + rest)
  }

  lemma SplitLit(s: string)
    requires |s| > 0
    ensures s == [s[0]] + s[1..]
  {
    assert s[..1] == [s[0]];
    assert s == s[..1] + s[1..];
  }

  lemma SplitField(s: string, n: nat)
    requires n > 0 && n == FieldLen(s)
    ensures s == "{" + s[1..n - 1] + "}" + s[n..]
  {
    assert s == s[..1] + s[1..n - 1] + s[n - 1..n] + s[n..];
  }

  /** The fields of a parsed template are exactly what the placeholder scan
      finds, in the same order. */
  lemma {:induction false} ParseFindsAll(s: string)
    requires Parse(s).Success?
    ensures FindAll(s) == Fields(Parse(s).value)
    decreases |s|
  {
    if |s| > 0 {
      var n := FieldLen(s);
      if n > 0 {
        ParseFindsAll(s[n..]);
        FindAllField(s, n);
      } else {
        ParseFindsAll(s[1..]);
        FindAllLit(s);
      }
    }
  }

  lemma FindAllField(s: string, n: nat)
    requires 0 < n == FieldLen(s) && Parse(s).Success?
    requires FindAll(s[n..]) == Fields(Parse(s[n..]).value)
    ensures FindAll(s) == Fields(Parse(s).value)
  {
    var t := Parse(s).value;
    var rest := Parse(s[n..]).value;
    assert t == [Field(s[1..n - 1])] + rest;
    assert t[1..] == rest;
  }

  lemma FindAllLit(s: string)
    requires |s| > 0 && FieldLen(s) == 0 && Parse(s).Success?
    requires FindAll(s[1..]) == Fields(Parse(s[1..]).value)
    ensures FindAll(s) == Fields(Parse(s).value)
  {
    var t := Parse(s).value;
    var rest := Parse(s[1..]).value;
    assert t == [Lit(s[0])] + rest;
    assert t[1..] == rest;
  }

  /** Python reads an all-digit field name as a positional index, and the
      bot passes no positional arguments. */
  predicate AllDigits(n: string) {
    forall i :: 0 <= i < |n| ==> IsDigit(n[i])
  }

  /** The text one piece contributes, or the exception `str.format` raises
      for it. */
  function RenderPiece(p: Piece, choices: map<string, string>): Result<string, PyError> {
    match p
    case Lit(c) => Success([c])
    case Field(n) =>
      if AllDigits(n) then Failure(IndexError)
      else if n in choices then Success(choices[n])
      else Failure(KeyError(n))
  }

  /** Substitute the fields left to right; the first failing field decides
      the exception. */
  function Render(t: seq<Piece>, choices: map<string, string>): (r: Result<string, PyError>)
    ensures r.Success? ==> forall n :: n in Fields(t) ==> n in choices && !AllDigits(n)
    ensures (forall n :: n in Fields(t) ==> n in choices && !AllDigits(n)) ==> r.Success?
  {
    if |t| == 0 then Success("")
    else
      match RenderPiece(t[0], choices)
      case Failure(e) => Failure(e)
      case Success(head) =>
        match Render(t[1..], choices)
        case Failure(e) => Failure(e)
        case Success(rest) => Success(head + rest)
  }

  /** `template.format(**choices)`. */
  function Format(s: string, choices: map<string, string>): Result<string, PyError> {
    var t :- Parse(s);
    Render(t, choices)
  }

  /** Rendering is compositional: each piece contributes independently, so
      every occurrence of a field is replaced by the same word. */
  lemma {:induction false} RenderAppend(a: seq<Piece>, b: seq<Piece>, choices: map<string, string>)
    requires Render(a, choices).Success? && Render(b, choices).Success?
    ensures Render(a + b, choices) == Success(Render(a, choices).value + Render(b, choices).value)
    decreases |a|
  {
    if |a| == 0 {
      assert a + b == b;
      assert "" + Render(b, choices).value == Render(b, choices).value;
    } else {
      var ab := a + b;
      assert ab[1..] == a[1..] + b;
      assert ab[0] == a[0];
      RenderCons(a, choices);
      RenderAppend(a[1..], b, choices);
      var head := RenderPiece(a[0], choices).value;
      var x, y := Render(a[1..], choices).value, Render(b, choices).value;
      RenderConsBack(ab, choices);
      assert head + (x + y) == (head + x) + y;
    }
  }

  lemma RenderCons(t: seq<Piece>, choices: map<string, string>)
    requires |t| > 0 && Render(t, choices).Success?
    ensures RenderPiece(t[0], choices).Success? && Render(t[1..], choices).Success?
    ensures Render(t, choices).value == RenderPiece(t[0], choices).value + Render(t[1..], choices).value
  {
  }

  lemma RenderConsBack(t: seq<Piece>, choices: map<string, string>)
    requires |t| > 0 && RenderPiece(t[0], choices).Success? && Render(t[1..], choices).Success?
    ensures Render(t, choices) == Success(RenderPiece(t[0], choices).value + Render(t[1..], choices).value)
  {
  }

  lemma {:induction false} FieldsAppend(a: seq<Piece>, b: seq<Piece>)
    ensures Fields(a + b) == Fields(a) + Fields(b)
    decreases |a|
  {
    if |a| == 0 {
      assert a + b == b;
    } else {
      var ab := a + b;
      assert ab[1..] == a[1..] + b;
      assert ab[0] == a[0];
      FieldsAppend(a[1..], b);
      var h := if a[0].Field? then [a[0].name] else [];
      assert Fields(ab) == h + Fields(ab[1..]);
      assert Fields(a) == h + Fields(a[1..]);
      assert h + (Fields(a[1..]) + Fields(b)) == (h + Fields(a[1..])) + Fields(b);
    }
  }

  /** A single field renders as its chosen word. */
  lemma RenderField(n: string, choices: map<string, string>)
    requires n in choices && !AllDigits(n)
    ensures Render([Field(n)], choices) == Success(choices[n])
  {
    assert [Field(n)][1..] == [];
    assert choices[n] + "" == choices[n];
  }

  /** With every scanned name available, formatting fails exactly when some
      name is all digits, and then with `IndexError`: never a `KeyError`. */
  lemma {:induction false} FormatNeverMissesAName(t: seq<Piece>, choices: map<string, string>)
    requires forall n :: n in Fields(t) ==> n in choices
    ensures Render(t, choices).Failure? ==> Render(t, choices).error == IndexError
    ensures Render(t, choices).Failure? <==> exists n :: n in Fields(t) && AllDigits(n)
    decreases |t|
  {
    if |t| > 0 {
      FieldsAppend([t[0]], t[1..]);
      assert [t[0]] + t[1..] == t;
      FormatNeverMissesAName(t[1..], choices);
    }
  }

  /** Parsing undoes writing a well-formed template out. */
  lemma {:induction false} ParseUnparse(t: seq<Piece>)
    requires WellFormed(t)
    ensures Parse(Unparse(t)) == Success(t)
    decreases |t|
  {
    if |t| > 0 {
      var s := Unparse(t);
      assert WellFormed(t[1..]) by {
        forall i | 0 <= i < |t[1..]| ensures match t[1..][i]
          case Lit(c) => c != '{' && c != '}'
          case Field(n) => IsName(n)
        {
          assert t[1..][i] == t[i + 1];
        }
      }
      ParseUnparse(t[1..]);
      assert t == [t[0]] + t[1..];
      match t[0]
      case Lit(c) => ParseLit(c, Unparse(t[1..]), t[1..]);
      case Field(n) => ParseField(n, Unparse(t[1..]), t[1..]);
    }
  }

  lemma ParseLit(c: char, rest: string, t: seq<Piece>)
    requires c != '{' && c != '}' && Parse(rest) == Success(t)
    ensures Parse([c] + rest) == Success([Lit(c)] + t)
  {
    var s := [c] + rest;
    assert s[1..] == rest;
    assert FieldLen(s) == 0;
  }

  lemma ParseField(n: string, rest: string, t: seq<Piece>)
    requires IsName(n) && Parse(rest) == Success(t)
    ensures Parse("{" + n + "}" + rest) == Success([Field(n)] + t)
  {
    var s := "{" + n + "}" + rest;
    assert s[1..] == n + "}" + rest;
    WordRunOfName(n, "}" + rest);
    assert s[|n| + 1] == '}';
    assert FieldLen(s) == |n| + 2;
    assert s[1..|n| + 1] == n;
    assert s[|n| + 2..] == rest;
  }

  lemma {:induction false} WordRunOfName(n: string, rest: string)
    requires IsName(n)
    requires |rest| > 0 && !IsWordChar(rest[0])
    ensures WordRun(n + rest) == |n|
    decreases |n|
  {
    if |n| > 1 {
      assert (n + rest)[1..] == n[1..] + rest;
      WordRunOfName(n[1..], rest);
    } else {
      assert (n + rest)[1..] == rest;
    }
  }
}

=== FILE: wordbank.dfy ===
/** The word bank loaded from `words.yaml` and the `FormatDict` lookup rules
    that apply to it at every level (commenter.py:209-229). */
module WordBank {
  import opened Wrappers
  import opened Builtins

  /** A value of the word bank: a nested mapping, or a list of candidate
      words. */
  datatype Node =
    | Table(entries: map<string, Node>)
    | Choices(words: seq<string>)

  /** Python truthiness of a looked-up value: `None`, `{}` and `[]` are
      false. */
  predicate Truthy(v: Option<Node>) {
    match v
    case None => false
    case Some(Table(m)) => |m| > 0
    case Some(Choices(ws)) => |ws| > 0
  }

  /** The key actually looked up: one trailing digit dropped, then
      lower-cased. */
  function NormalKey(key: string): (k: string)
    requires |key| > 0
    ensures |k| == |key| || |k| == |key| - 1
    ensures forall i :: 0 <= i < |k| ==> !IsUpper(k[i])
  {
    var base := if IsDigit(key[|key| - 1]) then key[..|key| - 1] else key;
    Lower(base)
  }

  /** `FormatDict.__getitem__`: the empty key fails on `key[-1]`; any other
      key is normalised and looked up with `dict.get`, so an absent key gives
      `None` rather than an exception. Nested tables need no re-wrapping here
      because `Lookup` applies to every `Table`. */
  function Lookup(table: map<string, Node>, key: string): (r: Result<Option<Node>, PyError>)
    ensures |key| == 0 <==> r == Failure(IndexError)
  {
    if |key| == 0 then Failure(IndexError)
    else
      var k := NormalKey(key);
      if k in table then Success(Some(table[k])) else Success(None)
  }

  /** Whatever is found sits under a stored key with no upper-case letter:
      entries whose key holds one can never be reached. */
  lemma LookupFindsLowerCaseKey(table: map<string, Node>, key: string)
    requires Lookup(table, key).Success? && Lookup(table, key).value.Some?
    ensures exists k ::
      && k in table && table[k] == Lookup(table, key).value.value
      && forall i :: 0 <= i < |k| ==> !IsUpper(k[i])
  {
    var k := NormalKey(key);
    assert k in table && table[k] == Lookup(table, key).value.value;
  }

  /** A key ending in a digit resolves as the dictionary entry named by the
      key without that one digit, lower-cased; absent entries give `None`. */
  lemma LookupDigitSuffix(table: map<string, Node>, base: string, d: char)
    requires IsDigit(d)
    ensures Lookup(table, base + [d]) ==
      Success(if Lower(base) in table then Some(table[Lower(base)]) else None)
  {
    assert (base + [d])[..|base|] == base;
  }

  /** For a key whose last character is not a digit, appending one digit
      changes nothing: `noun1`, `noun2` and `noun` name the same entry. */
  lemma LookupIgnoresOneDigit(table: map<string, Node>, base: string, d: char)
    requires IsDigit(d)
    requires |base| > 0 && !IsDigit(base[|base| - 1])
    ensures Lookup(table, base + [d]) == Lookup(table, base)
  {
    LookupDigitSuffix(table, base, d);
  }

  /** Lookup is case-insensitive in the key it is given. */
  lemma LookupCaseInsensitive(table: map<string, Node>, key: string)
    ensures Lookup(table, Lower(key)) == Lookup(table, key)
  {
    if |key| > 0 {
      var n := |key|;
      assert Lower(key)[..n - 1] == Lower(key[..n - 1]);
      LowerIdempotent(key);
      LowerIdempotent(key[..n - 1]);
    }
  }

  /** `traverse_dict(words, start, key)` for a string `key`: two lookups,
      the second one on whatever the first returned. Indexing `None` or a
      list with a string raises `TypeError`. */
  function Traverse(words: map<string, Node>, start: string, key: string): (r: Result<Option<Node>, PyError>)
    ensures |start| == 0 ==> r == Failure(IndexError)
    ensures Lookup(words, start) == Success(None) ==> r == Failure(TypeError)
    ensures r.Success? ==> exists t :: Lookup(words, start) == Success(Some(Table(t))) && r == Lookup(t, key)
    ensures forall t :: Lookup(words, start) == Success(Some(Table(t))) ==> r == Lookup(t, key)
    ensures forall ws :: Lookup(words, start) == Success(Some(Choices(ws))) ==> r == Failure(TypeError)
  {
    match Lookup(words, start)
    case Failure(e) => Failure(e)
    case Success(None) => Failure(TypeError)
    case Success(Some(Choices(_))) => Failure(TypeError)
    case Success(Some(Table(t))) => Lookup(t, key)
  }
}

=== FILE: wrappers.dfy ===
/** Failure-compatible wrappers used throughout the model: an optional value
    (Python's `None` or a value) and a result that is either a value or the
    exception the Python code would raise. */
module Wrappers {

  datatype Option<+T> = None | Some(value: T) {
    predicate IsFailure() {
      None?
    }

    function PropagateFailure<U>(): Option<U>
      requires None?
    {
      None
    }

    function Extract(): T
      requires Some?
    {
      value
    }
  }

  datatype Result<+R, +E> = Success(value: R) | Failure(error: E) {
    predicate IsFailure() {
      Failure?
    }

    function PropagateFailure<U>(): Result<U, E>
      requires Failure?
    {
      Failure(error)
    }

    function Extract(): R
      requires Success?
    {
      value
    }
  }
}
